=== FILE: README.md ===
# Dependency specs and model containers, in Dafny

This project models the persistence layer of a small model-packaging
library.

At its centre is the dependency spec. It declares which named columns a
model reads or produces, and comes in two forms:

- A flat `DependencySpec` holds a sorted list of unique names and a `meta`
  dict.
- A `NestedDependencySpec` holds a non-empty list of child specs whose
  flattened names do not repeat when it is built.

The model covers these operations on a spec:

- construction and its validation;
- the flattened `dependencies` view, with `len` and iteration over it;
- indexing by a name, a position, or a collection of names;
- the flat union `+`;
- the nested in-place append `+=`;
- the conversion to and from a JSON-compatible dictionary (`to_dict` and
  `from_dict`).

Beside the specs sits the `ModelContainer`. It bundles a model, an input
spec, an output spec, a duration and evaluation metrics, and saves them to
a directory of four files. The project models:

- its constructor checks;
- the four-file layout;
- the integer split of a `timedelta`, and how it is read back;
- the extras dictionary;
- `save`, and `load` with its ordered file-existence checks.

It also models the backend loops of `model_io`:

- `save` offers the model to every exporter.
- `load` takes the first importer result that is not `None`.

Python values are represented by a `Json` datatype with `None`, `bool`,
`int`, `float`, `str`, `list` and `dict`. A spec argument is an `Operand`:
either a plain value or a spec. An exception becomes `Failure(e)`, where `e`
is its Python class, and `:-` propagates it the way an uncaught exception
propagates out of a call. A `bool` is an `int` here, as it is in Python.
So `spec + True` takes the integer branch, and `spec[True]` is position 1.

Parameters stand in for what the model cannot see:

- The file system is a map from path to file.
- The date that `save` stamps into the extras file is a string argument.
- What each backend does is one outcome per backend, in registration order.

Files: `outcomes.dfy` (errors and results), `seqs.dfy` (sets of a
sequence, uniqueness), `str_order.dfy` (Python's string order, sorting),
`json_values.dfy` (the value datatype, truthiness, `iter()`),
`dependencies.dfy`, `spec_json.dfy`, `durations.dfy`, `model_io.dfy` and
`models.dfy`.

The model follows what the code does, including where it departs from
what a reader of the interface would expect:

- Leaf construction with an empty or repeated name raises `AssertionError`,
  not a validation error. A non-string name raises `TypeError`.
- A dictionary holding both `dependencies` and `children`, or any key
  other than those two and `meta`, raises `ValueError`. The empty
  dictionary and one holding only `meta` read as a flat spec that lacks
  its required argument, which raises `TypeError`.
- A nested spec's `+=` takes only a flat spec.
- A flat spec's `+=` never succeeds. Once the operand passes the type check, the
  method assigns to the read-only `dependencies` property and raises
  `AttributeError`.
- `model_io.save` calls every exporter; it does not stop at the first
  success.
- When no importer succeeds, `model_io.load` raises `UnboundLocalError`,
  not the last backend's error.
- `ModelContainer.load` returns the specs as `None` (see Findings).
- A missing file in `ModelContainer.load` raises `AssertionError`, whose
  message names the path. It is modelled as `MissingFile(path)`.

## Model

| member | source | states |
|---|---|---|
| StrOrder.Sort | persistence/dependencies.py:133 | `sorted()` on a list of names: the result is in Python's string order and is a permutation of the input |
| StrOrder.SortedSet | persistence/dependencies.py:154-155 | `sorted()` on a set of names: the result is strictly increasing and holds exactly the set's members |
| StrOrder.SortKeepsSorted | persistence/dependencies.py:133 | sorting a list that is already in order returns it unchanged |
| JsonValues.Iterate | persistence/dependencies.py:39-43 | `iter()` on a value: a list gives its items, a string its characters, a dict its distinct keys; any other value gives TypeError |
| Dependencies.Deps | persistence/dependencies.py:139-141 | the `dependencies` property: a flat spec's stored names; a nested spec's are its children's, chained (lines 215-217) |
| Dependencies.DepsOf | persistence/dependencies.py:215-217 | `itertools.chain` over the children's `dependencies`, in child order |
| Dependencies.DepsOfConcat | persistence/dependencies.py:215-217 | the flattened names of a concatenation of children are the concatenation of their flattened names |
| Dependencies.DepsOfMembership | persistence/dependencies.py:215-217 | a name is in a nested spec's flattened names exactly when some child holds it |
| Dependencies.ChildrenDisjoint | persistence/dependencies.py:195-209 | when the flattened names are unique, any two distinct children share no name |
| Dependencies.Len | persistence/dependencies.py:26-27 | `__len__`: the length of the `dependencies` list |
| Dependencies.LenOfNested | persistence/dependencies.py:26-27 | `len` of a nested spec is the sum of its children's lengths |
| Dependencies.LenCountsNames | persistence/dependencies.py:23-27 | `len` of a constructed spec equals the number of distinct names iteration yields, and is positive |
| Dependencies.MetaOf | persistence/dependencies.py:135-137 | `meta or {}`: a falsy value gives the empty map, a dict gives itself, any other truthy value fails on `update` |
| Dependencies.NewLeaf | persistence/dependencies.py:124-137 | a non-string name gives TypeError; an empty or repeated list gives AssertionError; otherwise the leaf holds a sorted permutation of the input names |
| Dependencies.NewLeafOfSorted | persistence/dependencies.py:133-141 | a strictly sorted name list is stored, and returned by `dependencies`, unchanged |
| Dependencies.NewNested | persistence/dependencies.py:185-213 | a string child gives TypeError, no children gives AssertionError, a non-spec child gives AttributeError, a repeated flattened name gives ValueError; success keeps the children in order and is valid |
| Dependencies.PyIndex | persistence/dependencies.py:36-37 | Python list indexing: a negative index counts from the end, anything outside `-n..n-1` gives IndexError |
| Dependencies.SelectName | persistence/dependencies.py:31-34 | a present name gives the singleton leaf with the spec's meta; an absent one gives ValueError |
| Dependencies.SelectPosition | persistence/dependencies.py:36-37 | a position gives the singleton leaf of the name at that position of the flattened names |
| Dependencies.SelectNames | persistence/dependencies.py:39-43 | every item must be a present name (else ValueError); the result is a leaf of exactly those names, sorted, and the leaf checks still apply |
| Dependencies.GetItem | persistence/dependencies.py:29-43 | `spec[key]` dispatches on a string, an int or bool, and any iterable (list, dict keys, spec names); other keys give TypeError; every result is a valid leaf with the spec's meta |
| Dependencies.NamesIffSubset | persistence/dependencies.py:39-41 | a list of strings passes the membership loop exactly when its names are a subset of the spec's |
| Dependencies.SelectSpecFacts | persistence/dependencies.py:39-43 | indexing by a spec succeeds exactly when its names are a subset, and gives a leaf with those names |
| Dependencies.SelectKeysFacts | persistence/dependencies.py:39-43 | indexing by a dict iterates its keys: success exactly when the non-empty key set is a subset of the names |
| Dependencies.MergeFacts | persistence/dependencies.py:152-158 | the sorted union passed back to the leaf constructor always succeeds, and adding no names gives the same names |
| Dependencies.Add | persistence/dependencies.py:143-158 | `+` succeeds exactly on a flat receiver and a str, int/bool or flat-spec operand (else TypeError); the result is the sorted union with the receiver's meta, and an int leaves it unchanged |
| Dependencies.AddSpecIsUnion | persistence/dependencies.py:143-158 | adding a flat spec gives the leaf of the sorted union of both name sets |
| Dependencies.AddCommutes | persistence/dependencies.py:152-158 | `a + b` and `b + a` hold the same names |
| Dependencies.AddIdempotent | persistence/dependencies.py:152-158 | `a + a` is `a` |
| Dependencies.LeafIAdd | persistence/dependencies.py:160-172 | on a flat spec `+=` never succeeds: it raises AttributeError exactly where `+` with the same operand would succeed, and TypeError elsewhere |
| Dependencies.IAdd | persistence/dependencies.py:226-233 | on a flat spec it is `LeafIAdd`; on a nested spec: a non-leaf operand gives TypeError, an overlapping leaf gives ValueError, otherwise the leaf is appended last, the flattened names are the old names followed by the leaf's, and the tree stays valid |
| Dependencies.AugAssignAsWritten | persistence/dependencies.py:226-233 | `name += leaf` as written: the receiver gains the child but the name is bound to `None` |
| Dependencies.AugAssignLosesSpec | persistence/dependencies.py:226-233 | a concrete disjoint append after which the name is bound to `None` |
| Dependencies.AugAssign | persistence/dependencies.py:226-233 | with `__iadd__` returning its receiver, the name stays bound to the extended, valid spec |
| SpecJson.ToDict | persistence/dependencies.py:178-179 | a flat spec gives exactly the keys `dependencies` and `meta`, the first holding its stored names in order; a nested one exactly `children` and `meta`, the first holding the children's dictionaries in order (also lines 241-242); `meta` holds the spec's meta |
| SpecJson.ToDictAll | persistence/dependencies.py:241-242 | `[child.to_dict() for child in children]`: one dictionary per child, item i being child i's |
| SpecJson.LeafFromFields | persistence/dependencies.py:59-61 | `DependencySpec(**d)`: without `dependencies` it is TypeError; with it, it succeeds exactly when `d["dependencies"]` iterates to a non-empty list of strings without repeats and `meta` is falsy or a dict (lines 124-137); a success is a valid leaf holding those names, sorted, with meta `d.get("meta") or {}` |
| SpecJson.UnsortedLeafDict | persistence/dependencies.py:59-61 | the hand-written `{"dependencies": ["b", "a"]}` reads as the leaf `["a", "b"]` with empty meta (sorted at line 133) |
| SpecJson.FromDict | persistence/dependencies.py:45-78 | dispatch on key subsets: a leaf-key dict gives exactly `DependencySpec(**d)`, keys only `meta` give TypeError, other-key or mixed dicts give ValueError, a list gives a nested spec with empty meta, any other value TypeError; every success is valid |
| SpecJson.FromDictAll | persistence/dependencies.py:62-64 | converting a list of children: on success item i is `from_dict` of dictionary i, every child valid; on failure the error is that of the first dictionary that fails, all before it converting |
| SpecJson.NestedDictAccepted | persistence/dependencies.py:62-69 | a dict with `children` and at most `meta` is accepted exactly when `children` is a list whose items all convert, there is at least one, the flattened names do not repeat, and `meta` (default `{}`) is falsy or a dict (lines 187-213); the spec then holds the converted children in order |
| SpecJson.ListAccepted | persistence/dependencies.py:73-76 | a list is accepted exactly when every item converts, there is at least one, and the flattened names do not repeat; child i is `from_dict` of item i and `meta` is empty |
| SpecJson.RoundTrip | persistence/dependencies.py:59-78 | `from_dict(to_dict(s))` rebuilds `s` exactly: tree shape, names and meta |
| SpecJson.RoundTripAll | persistence/dependencies.py:62-64 | the children's dictionaries convert back to the same children |
| SpecJson.ListForm | persistence/dependencies.py:73-76 | a list of child dictionaries whose names do not repeat reads as the nested spec of those children with empty meta |
| Durations.Split | persistence/models.py:82-87 | the days, seconds and microseconds fields are normalised (seconds in 0..86399, microseconds in 0..999999) and add up to the duration |
| Durations.SplitUnique | persistence/models.py:82-87 | the normalised split of a duration is unique |
| Durations.DurationToDict | persistence/models.py:82-87 | the dict has exactly the keys `days`, `seconds` and `microseconds`, every value an int, normalised and totalling the duration |
| Durations.DictToDuration | persistence/models.py:89-91 | `timedelta(**v)`: a non-dict, an unknown keyword or a non-integer component gives TypeError, an out-of-range sum OverflowError; success is the weighted sum in microseconds |
| Durations.DurationRoundTrip | persistence/models.py:82-91 | reading back the written dict gives the original duration |
| Durations.SecondsCarryIntoDays | persistence/models.py:82-91 | `{"seconds": 90000}` reads as 90000 seconds and is written back as 1 day and 3600 seconds |
| Durations.NegativeBorrowsFromDays | persistence/models.py:82-91 | `{"microseconds": -1}` reads as minus one microsecond and is written back as day -1, 86399 seconds and 999999 microseconds |
| ModelIo.Save | persistence/model_io.py:52-62 | every exporter is called, in order, and the result is true exactly when some exporter returned normally (false for no exporters) |
| ModelIo.FirstLoaded | persistence/model_io.py:65-75 | the result is the first importer value that is not `None`, all earlier importers having failed; with none, UnboundLocalError |
| ModelIo.Load | persistence/model_io.py:65-75 | importers are called in order up to and including the first success and no further; all of them when none succeeds |
| Models.Join | persistence/models.py:73-76 | `os.path.join(root, name)` on POSIX paths: an absolute name replaces the root, and a `/` is inserted unless the root is empty or ends in one |
| Models.JoinInjective | persistence/models.py:73-76 | joining distinct relative names to one root gives distinct paths |
| Models.SavePaths | persistence/models.py:71-79 | the four paths are the root's prefix followed by `model`, `X_spec.json`, `y_spec.json` and `extras.json`, pairwise distinct (names from lines 30-33) |
| Models.NewContainer | persistence/models.py:50-68 | a model without `predict` or `fit`, or truthy non-dict metrics, give AssertionError; falsy metrics are stored as `{}` |
| Models.Extras | persistence/models.py:116-121 | the extras dict has exactly the keys `eval_metrics`, `dt` and `save_timestamp`; `dt` is `__timedelta_to_dict(self.dt)` and reads back as the container's duration |
| Models.SaveSpec | persistence/models.py:93-97 | a spec file is truncated before `to_dict`, so a `None` spec leaves it empty and raises AttributeError; otherwise it holds the spec's dictionary; no other file changes |
| Models.ExportModel | persistence/models.py:131-132 | `model_io.save` on the model path: the file holds the model exactly when some exporter succeeded, and is left as it was (present or absent) otherwise; no other file changes |
| Models.SaveTo | persistence/models.py:131-138 | the writes of a save: the save raises, with AttributeError, exactly when a spec is `None` |
| Models.Save | persistence/models.py:106-138 | the save raises, with AttributeError, exactly when a spec is `None`; whether an exporter succeeded does not matter |
| Models.SaveModelFile | persistence/models.py:123-132 | after a save the model file holds the model when some exporter succeeded, and is as it was before otherwise |
| Models.SaveSpecFiles | persistence/models.py:133-138 | a complete save leaves both spec dictionaries and the extras dict in their files; without an X spec the X file is left empty and the y-spec and extras files are not created |
| Models.SaveTouchesOnlyItsFiles | persistence/models.py:123-138 | a save creates or changes no file other than the four of its directory |
| Models.ReadJson | persistence/models.py:170-171 | only a JSON text file decodes; an empty or model file gives a decode error |
| Models.Subscript | persistence/models.py:173-174 | a missing key gives KeyError naming it, a non-dict gives TypeError |
| Models.LoadSpecAsWritten | persistence/models.py:99-104 | a spec file that is not JSON raises the decode error, and one whose dictionary `from_dict` refuses raises that very error; otherwise the result is always `None` |
| Models.LoadSpec | persistence/models.py:99-104 | with the parsed spec returned, it fails exactly when the as-written reader fails and otherwise gives a valid spec |
| Models.ReadSpec | persistence/models.py:166-167 | either spec reader fails exactly when, and with the error with which, the as-written one fails; as written the spec is `None`, corrected it is a valid spec |
| Models.ReadExtras | persistence/models.py:169-174 | the extras file is read exactly when it is a JSON dict holding `eval_metrics` and a `dt` that `timedelta(**dt)` accepts; otherwise the decode error, TypeError for a non-dict, KeyError naming the first missing key, or the conversion's error, in that order; the metrics come back as stored and the duration is the one `dt` denotes |
| Models.CheckFiles | persistence/models.py:155-163 | the four existence checks run in order, and the first missing file is the one reported |
| Models.LoadWith | persistence/models.py:165-176 | after the checks, load succeeds exactly when an importer gives a model with `fit` and `predict`, both spec files parse and the extras file reads with falsy or dict metrics; the errors come in the source's order (UnboundLocalError, X spec, y spec, extras, the constructor's AssertionError); the container's `dt` and metrics (`or {}`) are the extras file's, and with the returning reader its specs are the parsed ones |
| Models.Load | persistence/models.py:140-176 | a missing file is reported before anything is read; past the checks, load succeeds exactly as `LoadWith` says, the importers decide the model, `dt` and metrics come from the extras file of any directory, and both specs are `None` |
| Models.LoadFixed | persistence/models.py:140-176 | with `load_spec` returning its spec, a missing file is still reported first; past the checks it succeeds exactly as `LoadWith` says, and the container holds the importers' model, the parsed specs, and the extras file's `dt` and metrics |
| Models.LoadWithAgrees | persistence/models.py:165-176 | after the checks, both spec readers give the same error or both succeed, with containers that differ only in their specs |
| Models.LoadFixedAgrees | persistence/models.py:140-176 | the corrected load fails exactly when the as-written one does, with the same error, and otherwise returns the same container with its specs filled in |
| Models.ExtrasReadBack | persistence/models.py:169-174 | the extras dict that save packs (lines 116-121) reads back as the container's metrics and duration |
| Models.LoadFromFiles | persistence/models.py:155-176 | files holding a loadable container's model, spec dictionaries and extras pass the checks and load back as that container, without its specs as written |
| Models.ReadSaved | persistence/models.py:106-176 | after a complete save with a succeeding exporter, the four files exist and the post-check steps of load rebuild the container |
| Models.SaveThenLoadLosesSpecs | persistence/models.py:99-104 | after a complete save, load returns the model, duration and metrics but neither spec |
| Models.SaveThenLoadFixed | persistence/models.py:116-121 | after a complete save, the corrected load returns the container that was saved, metrics and duration included (read back at lines 173-176) |
| Models.SaveWithoutExporterCannotLoad | persistence/models.py:132-157 | when every exporter fails on a fresh directory, the save leaves no model file and load reports it missing |
| Models.SaveWithoutSpecCannotLoad | persistence/models.py:133-134 | saving with no X spec raises AttributeError after emptying its file, and a later load fails to decode that file |

## Left out

- File contents are JSON values, not text. `json.dumps` followed by `json.loads` is the identity here. Indentation, encodings and non-string dict keys are not modelled.
- Directories are not modelled. `os.makedirs` and `os.path.isdir` are outside the model, and so are a root that names an existing file and a backend that writes a directory instead of a file.
- The keras and joblib backends, and the code that chooses them when the module is imported, are foreign libraries. Each backend call is reduced to its outcome. A raising exporter is assumed to leave the model file as it was.
- Importers do not read the model file: `load` takes their outcomes as a separate parameter. So the save-then-load lemmas (`Models.ReadSaved`, `Models.SaveThenLoadLosesSpecs`, `Models.SaveThenLoadFixed`) assume that the importers give back the model that was saved. That is a property of the backends, not of this code.
- The wall clock is outside the model: the `save_timestamp` string is a parameter.
- Dependencies.IAdd: specs are values, not shared objects. `IAdd` returns the extended spec, while Python appends to the receiver's `children` list in place (dependencies.py:233). A parent that already holds the receiver sees the new child too. The disjointness check (line 231) looks only at the receiver's own names, and a parent checks uniqueness only when it is built (line 197). So in Python a parent's flattened names can come to repeat, and `from_dict(to_dict(parent))` then raises `ValueError`. Such trees fall outside `Valid`, and the model does not cover them.
- Meta dicts are values, not shared references. The `**kwargs` merged into `meta` by the constructors are not modelled, and neither is the aliasing of a `meta` dict between a spec and the specs indexed from it.
- The `__str__` methods, the duplicate report printed by the nested constructor, and the spec-level `save`/`load` helpers (dependencies.py:80-102) are not modelled.
- Exception messages are not modelled, except for the path named by a failed existence check.
- Durations.DictToDuration: a `float` component is refused with TypeError, while Python accepts it and rounds the total to whole microseconds. Durations written by `save` are always integers, so the round trip is unaffected.
- JsonValues.Iterate: a dict's keys come out sorted, because a Dafny map has no insertion order. Every use in the model either sorts the names again or fails the same way on any key.
- Nested `+` (dependencies.py:219-224) always raises TypeError. `Dependencies.Add` states it as a failure on a nested receiver.

## Findings

| source | as written | input that shows it | evidently intended | confidence | as-written member | corrected member |
|---|---|---|---|---|---|---|
| persistence/dependencies.py:226-233 | `__iadd__` appends the child and ends without `return`, so `name += leaf` rebinds `name` to `None` | `s` nested over leaf `["a"]`; after `s += DependencySpec(["b"])`, `s` is `None` | `return self`, so `s` stays the extended spec | not executed | Dependencies.AugAssignAsWritten, Dependencies.AugAssignLosesSpec | Dependencies.AugAssign |
| persistence/models.py:99-104 | `load_spec` parses the file but does not return the spec, so `ModelContainer.load` builds a container whose X and y specs are `None` | any container with both specs, saved and then loaded | `return DependencySpecType.from_dict(dictionary)` | not executed | Models.Load, Models.SaveThenLoadLosesSpecs | Models.LoadFixed, Models.SaveThenLoadFixed |

=== FILE: dependencies.dfy ===
/** The dependency-spec tree: a flat `DependencySpec` holding sorted, unique
    column names, or a `NestedDependencySpec` holding child specs whose
    flattened names are unique across the whole tree. */
module Dependencies {
  import opened Outcomes
  import opened Seqs
  import opened StrOrder
  import opened JsonValues

  /** The `meta` dictionary of a spec, as an immutable value. */
  type Meta = map<string, Json>

  /** `Leaf` is a `DependencySpec`, `Nested` a `NestedDependencySpec`. */
  datatype DepSpec =
    | Leaf(deps: seq<string>, meta: Meta)
    | Nested(children: seq<DepSpec>, meta: Meta)

  /** A Python argument of an operation: a plain value or a spec object. */
  datatype Operand = Value(v: Json) | Spec(spec: DepSpec)

  /** The `dependencies` property, which `len()` and iteration delegate to. */
  function Deps(s: DepSpec): seq<string>
  {
    match s
    case Leaf(deps, _) => deps
    case Nested(children, _) => DepsOf(children)
  }

  /** `itertools.chain` over the children's `dependencies`, in order. */
  function DepsOf(cs: seq<DepSpec>): seq<string>
  {
    if |cs| == 0 then [] else Deps(cs[0]) + DepsOf(cs[1..])
  }

  /** What construction establishes: a leaf holds at least one name, sorted
      and without repeats; a nested spec has at least one child, every child
      is itself valid, and the flattened names never repeat. */
  predicate Valid(s: DepSpec)
  {
    match s
    case Leaf(deps, _) => |deps| > 0 && Sorted(deps) && Unique(deps)
    case Nested(children, _) =>
      && |children| > 0
      && (forall i | 0 <= i < |children| :: Valid(children[i]))
      && Unique(DepsOf(children))
  }

  /** Every spec object in Python went through its constructor. */
  predicate WellFormed(o: Operand)
  {
    o.Spec? ==> Valid(o.spec)
  }

  /** `len(spec)`. */
  function Len(s: DepSpec): nat
  {
    |Deps(s)|
  }

  // ---------------------------------------------------------------------
  // The flattened view

  lemma {:induction false} DepsOfConcat(a: seq<DepSpec>, b: seq<DepSpec>)
    ensures DepsOf(a + b) == DepsOf(a) + DepsOf(b)
  {
    if |a| == 0 {
      assert a + b == b;
    } else {
      assert (a + b)[0] == a[0];
      assert (a + b)[1..] == a[1..] + b;
      DepsOfConcat(a[1..], b);
    }
  }

  /** Appending a child appends its names after all earlier ones. */
  lemma DepsOfAppend(cs: seq<DepSpec>, c: DepSpec)
    ensures DepsOf(cs + [c]) == DepsOf(cs) + Deps(c)
  {
    DepsOfConcat(cs, [c]);
    assert DepsOf([c]) == Deps(c) + DepsOf([]);
  }

  /** A name is in the flattened view exactly when some child holds it. */
  lemma {:induction false} DepsOfMembership(cs: seq<DepSpec>, x: string)
    ensures x in DepsOf(cs) <==> exists i | 0 <= i < |cs| :: x in Deps(cs[i])
  {
    if |cs| > 0 {
      DepsOfMembership(cs[1..], x);
      if x in DepsOf(cs[1..]) {
        var i :| 0 <= i < |cs[1..]| && x in Deps(cs[1..][i]);
        assert x in Deps(cs[i + 1]);
      }
      if exists i | 0 <= i < |cs| :: x in Deps(cs[i]) {
        var i :| 0 <= i < |cs| && x in Deps(cs[i]);
        if i > 0 {
          assert cs[1..][i - 1] == cs[i];
        }
      }
    }
  }

  /** Global uniqueness seen child by child: distinct children of a nested
      spec never share a name. */
  lemma {:induction false} ChildrenDisjoint(cs: seq<DepSpec>, i: nat, j: nat)
    requires Unique(DepsOf(cs))
    requires i < j < |cs|
    ensures ToSet(Deps(cs[i])) !! ToSet(Deps(cs[j]))
  {
    UniqueConcat(Deps(cs[0]), DepsOf(cs[1..]));
    if i == 0 {
      forall x | x in Deps(cs[j])
        ensures x !in Deps(cs[0])
      {
        DepsOfMembership(cs[1..], x);
        assert cs[1..][j - 1] == cs[j];
        assert x in ToSet(DepsOf(cs[1..]));
      }
    } else {
      assert cs[1..][i - 1] == cs[i] && cs[1..][j - 1] == cs[j];
      ChildrenDisjoint(cs[1..], i - 1, j - 1);
    }
  }

  /** `len` of a nested spec adds up the lengths of its children. */
  function SumLen(cs: seq<DepSpec>): nat
  {
    if |cs| == 0 then 0 else Len(cs[|cs| - 1]) + SumLen(cs[..|cs| - 1])
  }

  lemma {:induction false} LenOfNested(cs: seq<DepSpec>, m: Meta)
    ensures Len(Nested(cs, m)) == SumLen(cs)
  {
    if |cs| > 0 {
      var p, c := cs[..|cs| - 1], cs[|cs| - 1];
      assert cs == p + [c];
      DepsOfAppend(p, c);
      LenOfNested(p, m);
      calc {
        Len(Nested(cs, m));
        |DepsOf(p + [c])|;
        |DepsOf(p)| + |Deps(c)|;
        Len(Nested(p, m)) + Len(c);
        SumLen(p) + Len(c);
        SumLen(cs);
      }
    } else {
      assert DepsOf(cs) == [];
    }
  }

  /** `len` of a valid spec counts distinct names. */
  lemma LenCountsNames(s: DepSpec)
    requires Valid(s)
    ensures Len(s) == |ToSet(Deps(s))| > 0
  {
    UniqueIffDistinctCount(Deps(s));
    match s
    case Leaf(_, _) =>
    case Nested(cs, _) =>
      assert Deps(cs[0]) <= DepsOf(cs);
      LenCountsNames(cs[0]);
  }

  // ---------------------------------------------------------------------
  // Construction

  /** `meta or {}` followed by `meta.update(kwargs)`: a falsy value becomes
      the empty dict, a dict is kept, and any other value has no `update`. */
  function MetaOf(v: Json): (r: Result<Meta>)
    ensures r.Success? <==> !Truthy(v) || v.JObj?
    ensures r.Success? ==> r.value == (if v.JObj? then v.fields else map[])
    ensures r.Failure? ==> r.error == AttributeError
  {
    if !Truthy(v) then Success(map[])
    else if v.JObj? then Success(v.fields)
    else Failure(AttributeError)
  }

  /** `DependencySpec(dependencies=names, meta=meta)`. */
  function NewLeaf(names: seq<Json>, meta: Json): (r: Result<DepSpec>)
    ensures !AllStr(names) ==> r == Failure(TypeError)
    ensures AllStr(names) && (|names| == 0 || !Unique(StrsOf(names))) ==> r == Failure(AssertionError)
    ensures r.Success? <==>
              && AllStr(names) && |names| > 0 && Unique(StrsOf(names))
              && MetaOf(meta).Success?
    ensures r.Success? ==>
              && r.value.Leaf? && Valid(r.value)
              && multiset(r.value.deps) == multiset(StrsOf(names))
              && r.value.meta == MetaOf(meta).value
  {
    if !AllStr(names) then Failure(TypeError)
    else
      var strs := StrsOf(names);
      UniqueIffDistinctCount(strs);
      if |strs| == 0 || |ToSet(strs)| != |strs| then Failure(AssertionError)
      else
        var m :- MetaOf(meta);
        var sorted := Sort(strs);
        UniqueOfPermutation(strs, sorted);
        Success(Leaf(sorted, m))
  }

  /** Constructing a leaf from names already in canonical order stores
      them unchanged. */
  lemma NewLeafOfSorted(names: seq<string>, m: Meta)
    requires |names| > 0 && StrictlySorted(names)
    ensures NewLeaf(Strs(names), JObj(m)) == Success(Leaf(names, m))
  {
    StrictIsSortedUnique(names);
    SortKeepsSorted(names);
    UniqueIffDistinctCount(names);
  }

  predicate IsStr(o: Operand)
  {
    o.Value? && o.v.JStr?
  }

  predicate AllSpecs(os: seq<Operand>)
  {
    forall i | 0 <= i < |os| :: os[i].Spec?
  }

  function SpecsOf(os: seq<Operand>): (r: seq<DepSpec>)
    requires AllSpecs(os)
    ensures |r| == |os|
    ensures forall i | 0 <= i < |os| :: os[i] == Spec(r[i])
  {
    seq(|os|, i requires 0 <= i < |os| => os[i].spec)
  }

  function AsOperands(cs: seq<DepSpec>): (r: seq<Operand>)
    ensures |r| == |cs| && forall i | 0 <= i < |cs| :: r[i] == Spec(cs[i])
    ensures AllSpecs(r) && SpecsOf(r) == cs
  {
    seq(|cs|, i requires 0 <= i < |cs| => Spec(cs[i]))
  }

  /** `NestedDependencySpec(children=children, meta=meta)`. A child that is
      neither a string nor a spec has no `dependencies` attribute. */
  function NewNested(children: seq<Operand>, meta: Json): (r: Result<DepSpec>)
    requires forall i | 0 <= i < |children| :: WellFormed(children[i])
    ensures (exists i | 0 <= i < |children| :: IsStr(children[i])) ==> r == Failure(TypeError)
    ensures |children| == 0 ==> r == Failure(AssertionError)
    ensures ((forall i | 0 <= i < |children| :: !IsStr(children[i])) && |children| > 0 && !AllSpecs(children))
              ==> r == Failure(AttributeError)
    ensures (AllSpecs(children) && |children| > 0 && !Unique(DepsOf(SpecsOf(children))))
              ==> r == Failure(ValueError)
    ensures r.Success? <==>
              && |children| > 0 && AllSpecs(children)
              && Unique(DepsOf(SpecsOf(children)))
              && MetaOf(meta).Success?
    ensures r.Success? ==>
              && r.value == Nested(SpecsOf(children), MetaOf(meta).value)
              && Valid(r.value)
  {
    if exists i | 0 <= i < |children| :: IsStr(children[i]) then Failure(TypeError)
    else if |children| == 0 then Failure(AssertionError)
    else if !AllSpecs(children) then Failure(AttributeError)
    else
      var cs := SpecsOf(children);
      assert forall i | 0 <= i < |cs| :: Valid(cs[i]) by {
        forall i | 0 <= i < |cs|
          ensures Valid(cs[i])
        {
          assert WellFormed(children[i]);
        }
      }
      var deps := DepsOf(cs);
      UniqueIffDistinctCount(deps);
      if |ToSet(deps)| != |deps| then Failure(ValueError)
      else
        var m :- MetaOf(meta);
        Success(Nested(cs, m))
  }

  // ---------------------------------------------------------------------
  // Indexing

  /** Python's `xs[i]` position on a list of length `n`: a negative `i`
      counts from the end. */
  function PyIndex(n: nat, i: int): (r: Result<nat>)
    ensures r.Success? <==> -(n as int) <= i < n
    ensures r.Success? ==> r.value < n && r.value == (if i < 0 then i + n else i)
    ensures r.Failure? ==> r.error == IndexError
  {
    if 0 <= i < n then Success(i)
    else if -(n as int) <= i < 0 then Success(i + n)
    else Failure(IndexError)
  }

  /** `x` is a string naming one of `names`. */
  predicate Names(x: Json, names: seq<string>)
  {
    x.JStr? && x.s in names
  }

  /** `spec[name]`: a singleton leaf sharing `spec.meta`. */
  function SelectName(s: DepSpec, n: string): (r: Result<DepSpec>)
    requires Valid(s)
    ensures r.Success? <==> n in Deps(s)
    ensures r.Success? ==> r.value == Leaf([n], s.meta) && Valid(r.value)
    ensures r.Failure? ==> r.error == ValueError
  {
    if n in Deps(s) then
      NewLeafOfSorted([n], s.meta);
      NewLeaf(Strs([n]), JObj(s.meta))
    else Failure(ValueError)
  }

  /** `spec[i]`: the name at position `i` of `dependencies`. */
  function SelectPosition(s: DepSpec, i: int): (r: Result<DepSpec>)
    requires Valid(s)
    ensures r.Success? <==> -(Len(s) as int) <= i < Len(s)
    ensures r.Success? ==>
              && r.value == Leaf([Deps(s)[if i < 0 then i + Len(s) else i]], s.meta)
              && Valid(r.value)
    ensures r.Failure? ==> r.error == IndexError
  {
    var d := Deps(s);
    var k :- PyIndex(|d|, i);
    NewLeafOfSorted([d[k]], s.meta);
    NewLeaf(Strs([d[k]]), JObj(s.meta))
  }

  /** `spec[names]` for any iterable: every item must be a present name,
      and the leaf constructor then checks and sorts them. */
  function SelectNames(s: DepSpec, items: seq<Json>): (r: Result<DepSpec>)
    requires Valid(s)
    ensures (exists j | 0 <= j < |items| :: !Names(items[j], Deps(s))) ==> r == Failure(ValueError)
    ensures r.Success? <==>
              && (forall j | 0 <= j < |items| :: Names(items[j], Deps(s)))
              && |items| > 0 && Unique(StrsOf(items))
    ensures r.Success? ==>
              && r.value.Leaf? && Valid(r.value) && r.value.meta == s.meta
              && multiset(r.value.deps) == multiset(StrsOf(items))
  {
    if exists j | 0 <= j < |items| :: !Names(items[j], Deps(s)) then Failure(ValueError)
    else NewLeaf(items, JObj(s.meta))
  }

  /** `spec[key]`: a name, a position (a `bool` is the position 0 or 1), or
      any iterable of names; the result is a new leaf carrying `spec.meta`. */
  function GetItem(s: DepSpec, key: Operand): (r: Result<DepSpec>)
    requires Valid(s) && WellFormed(key)
    ensures r.Success? ==> r.value.Leaf? && Valid(r.value) && r.value.meta == s.meta
    ensures key.Value? && key.v.JStr? ==> r == SelectName(s, key.v.s)
    ensures key.Value? && key.v.JInt? ==> r == SelectPosition(s, key.v.i)
    ensures key.Value? && key.v.JBool? ==> r == SelectPosition(s, if key.v.b then 1 else 0)
    ensures key.Value? && key.v.JArr? ==> r == SelectNames(s, key.v.items)
    ensures key.Value? && key.v.JObj? ==>
              && (r.Success? <==> |key.v.fields| > 0 && key.v.fields.Keys <= ToSet(Deps(s)))
              && (r.Success? ==> ToSet(r.value.deps) == key.v.fields.Keys)
    ensures key.Spec? ==>
              && (r.Success? <==> ToSet(Deps(key.spec)) <= ToSet(Deps(s)))
              && (r.Success? ==> Sorted(r.value.deps) && multiset(r.value.deps) == multiset(Deps(key.spec)))
    ensures key.Value? && (key.v.JNull? || key.v.JFloat?) ==> r == Failure(TypeError)
  {
    match key
    case Value(JStr(n)) => SelectName(s, n)
    case Value(JInt(i)) => SelectPosition(s, i)
    case Value(JBool(b)) => SelectPosition(s, if b then 1 else 0)
    case Value(JArr(items)) => SelectNames(s, items)
    case Value(JObj(fields)) =>
      SelectKeysFacts(s, fields);
      SelectNames(s, Iterate(key.v).value)
    case Spec(t) =>
      SelectSpecFacts(s, t);
      SelectNames(s, Strs(Deps(t)))
    case Value(_) => Failure(TypeError)
  }

  /** Every item of `items` names one of `names` exactly when the set of
      its strings is contained in theirs. */
  lemma NamesIffSubset(items: seq<Json>, names: seq<string>)
    requires AllStr(items)
    ensures (forall j | 0 <= j < |items| :: Names(items[j], names))
              <==> ToSet(StrsOf(items)) <= ToSet(names)
  {
    var strs := StrsOf(items);
    if ToSet(strs) <= ToSet(names) {
      forall j | 0 <= j < |items|
        ensures Names(items[j], names)
      {
        assert strs[j] in ToSet(strs);
      }
    }
  }

  /** Selecting by a spec selects that spec's names. */
  lemma SelectSpecFacts(s: DepSpec, t: DepSpec)
    requires Valid(s) && Valid(t)
    ensures var r := SelectNames(s, Strs(Deps(t)));
            && (r.Success? <==> ToSet(Deps(t)) <= ToSet(Deps(s)))
            && (r.Success? ==> Sorted(r.value.deps) && multiset(r.value.deps) == multiset(Deps(t)))
  {
    LenCountsNames(t);
    NamesIffSubset(Strs(Deps(t)), Deps(s));
    match t
    case Leaf(_, _) =>
    case Nested(_, _) =>
  }

  /** Selecting by a dict selects its keys. */
  lemma SelectKeysFacts(s: DepSpec, fields: map<string, Json>)
    requires Valid(s)
    ensures Iterate(JObj(fields)).Success?
    ensures var r := SelectNames(s, Iterate(JObj(fields)).value);
            && (r.Success? <==> |fields| > 0 && fields.Keys <= ToSet(Deps(s)))
            && (r.Success? ==> ToSet(r.value.deps) == fields.Keys)
  {
    var items := Iterate(JObj(fields)).value;
    NamesIffSubset(items, Deps(s));
    var r := SelectNames(s, items);
    if r.Success? {
      ToSetOfPermutation(r.value.deps, StrsOf(items));
    }
  }

  // ---------------------------------------------------------------------
  // Merging

  /** The operands `DependencySpec.__add__` accepts: a string, an `int`
      (a `bool` included) or a flat spec. */
  predicate Addable(o: Operand)
  {
    match o
    case Value(v) => v.JStr? || v.JInt? || v.JBool?
    case Spec(t) => t.Leaf?
  }

  /** The names `__add__` turns an accepted operand into: `[other]` for a
      string, `[]` for an `int`, the names of a flat spec. */
  function AddedNames(o: Operand): seq<string>
    requires Addable(o)
  {
    match o
    case Value(JStr(n)) => [n]
    case Value(_) => []
    case Spec(t) => t.deps
  }

  lemma ToSetSingleton(s: seq<string>)
    ensures |s| == 1 ==> ToSet(s) == {s[0]}
  {
    if |s| == 1 {
      assert s == [s[0]];
    }
  }

  /** `sorted(set.union(set(deps), set(extra)))` fed back to the leaf
      constructor gives a leaf of exactly those names. */
  lemma MergeFacts(deps: seq<string>, extra: seq<string>, m: Meta)
    requires |deps| > 0 && Sorted(deps) && Unique(deps)
    ensures var union := SortedSet(ToSet(deps) + ToSet(extra));
            && |union| > 0
            && NewLeaf(Strs(union), JObj(m)) == Success(Leaf(union, m))
            && (extra == [] ==> union == deps)
  {
    var union := SortedSet(ToSet(deps) + ToSet(extra));
    assert deps[0] in ToSet(deps);
    NewLeafOfSorted(union, m);
    if extra == [] {
      SortedUniqueIsStrict(deps);
      StrictlySortedBySet(union, deps);
    }

  }

  /** `spec + other`. A flat spec merges the sorted union of the names and
      keeps its own `meta`; a nested spec's `+` concatenates a list with a
      spec and always raises `TypeError`. */
  function Add(s: DepSpec, other: Operand): (r: Result<DepSpec>)
    requires Valid(s) && WellFormed(other)
    ensures r.Success? <==> s.Leaf? && Addable(other)
    ensures r.Failure? ==> r.error == TypeError
    ensures r.Success? ==>
              && r.value.Leaf? && Valid(r.value) && StrictlySorted(r.value.deps)
              && r.value.meta == s.meta
    ensures r.Success? && IsStr(other) ==> ToSet(r.value.deps) == ToSet(s.deps) + {other.v.s}
    ensures r.Success? && other.Value? && !IsStr(other) ==> r.value == s
    ensures r.Success? && other.Spec? ==> ToSet(r.value.deps) == ToSet(s.deps) + ToSet(other.spec.deps)
  {
    if s.Nested? || !Addable(other) then Failure(TypeError)
    else
      var extra := AddedNames(other);
      var union := SortedSet(ToSet(s.deps) + ToSet(extra));
      MergeFacts(s.deps, extra, s.meta);
      ToSetSingleton(extra);
      NewLeaf(Strs(union), JObj(s.meta))
  }

  /** `spec += other` on a flat spec: the type check is the one of `+`,
      after which the method assigns to the read-only `dependencies`
      property. The call never succeeds: it raises `AttributeError` exactly
      where `spec + other` would have succeeded, and `TypeError` elsewhere. */
  function LeafIAdd(s: DepSpec, other: Operand): (r: Result<DepSpec>)
    requires Valid(s) && s.Leaf? && WellFormed(other)
    ensures r.Failure?
    ensures r.error == AttributeError <==> Add(s, other).Success?
    ensures r.error == TypeError <==> Add(s, other).Failure?
  {
    Failure(if Addable(other) then AttributeError else TypeError)
  }

  /** `spec += other`, as the state of `spec` after the call. A nested spec
      appends a flat spec as its last child, refusing one that shares a
      name with the tree. */
  function IAdd(s: DepSpec, other: Operand): (r: Result<DepSpec>)
    requires Valid(s) && WellFormed(other)
    ensures s.Leaf? ==> r == LeafIAdd(s, other)
    ensures s.Nested? && !(other.Spec? && other.spec.Leaf?) ==> r == Failure(TypeError)
    ensures s.Nested? && other.Spec? && other.spec.Leaf? ==>
              && (r.Success? <==> ToSet(Deps(s)) !! ToSet(other.spec.deps))
              && (r.Failure? ==> r.error == ValueError)
    ensures r.Success? ==>
              && r.value == Nested(s.children + [other.spec], s.meta)
              && Deps(r.value) == Deps(s) + Deps(other.spec)
              && Valid(r.value)
  {
    match s
    case Leaf(_, _) => LeafIAdd(s, other)
    case Nested(cs, m) =>
      if !(other.Spec? && other.spec.Leaf?) then Failure(TypeError)
      else if !(ToSet(DepsOf(cs)) !! ToSet(other.spec.deps)) then Failure(ValueError)
      else
        var cs' := cs + [other.spec];
        DepsOfAppend(cs, other.spec);
        UniqueConcat(DepsOf(cs), other.spec.deps);
        Success(Nested(cs', m))
  }

  /** Two flat specs merge into the sorted union of their names. */
  lemma AddSpecIsUnion(a: DepSpec, b: DepSpec)
    requires Valid(a) && Valid(b) && a.Leaf? && b.Leaf?
    ensures Add(a, Spec(b)) == Success(Leaf(SortedSet(ToSet(a.deps) + ToSet(b.deps)), a.meta))
  {
    var union := SortedSet(ToSet(a.deps) + ToSet(b.deps));
    MergeFacts(a.deps, b.deps, a.meta);
    assert AddedNames(Spec(b)) == b.deps;
    assert Addable(Spec(b));
    assert NewLeaf(Strs(union), JObj(a.meta)) == Success(Leaf(union, a.meta));
  }

  lemma UnionCommutes(x: set<string>, y: set<string>)
    ensures x + y == y + x
  {
  }

  lemma UnionSelf(x: set<string>)
    ensures x + x == x
  {
  }

  /** Merging two flat specs gives the same names in either order. */
  lemma AddCommutes(a: DepSpec, b: DepSpec)
    requires Valid(a) && Valid(b) && a.Leaf? && b.Leaf?
    ensures Add(a, Spec(b)).Success? && Add(b, Spec(a)).Success?
    ensures Add(a, Spec(b)).value.deps == Add(b, Spec(a)).value.deps
  {
    AddSpecIsUnion(a, b);
    AddSpecIsUnion(b, a);
    UnionCommutes(ToSet(a.deps), ToSet(b.deps));
  }

  /** Merging a flat spec with itself gives it back unchanged. */
  lemma AddIdempotent(a: DepSpec)
    requires Valid(a) && a.Leaf?
    ensures Add(a, Spec(a)) == Success(a)
  {
    AddSpecIsUnion(a, a);
    UnionSelf(ToSet(a.deps));
    SortedUniqueIsStrict(a.deps);
    StrictlySortedBySet(SortedSet(ToSet(a.deps)), a.deps);
  }

  // ---------------------------------------------------------------------
  // The statement `name += other`

  /** After `name += other`: the receiver object, and what `name` is bound
      to (`None` is Python's `None`). */
  datatype AugAssignment = AugAssignment(receiver: DepSpec, binding: Option<DepSpec>)

  /** `name += other` on a nested spec as written: `__iadd__` extends the
      receiver but has no `return`, so `name` is rebound to `None`. */
  function AugAssignAsWritten(s: DepSpec, other: Operand): (r: Result<AugAssignment>)
    requires Valid(s) && s.Nested? && WellFormed(other)
    ensures r.Success? <==> IAdd(s, other).Success?
    ensures r.Success? ==> r.value.receiver == IAdd(s, other).value && r.value.binding.None?
  {
    var extended :- IAdd(s, other);
    Success(AugAssignment(extended, None))
  }

  /** A disjoint append through `+=` leaves the name bound to `None`,
      although the receiver gained the child. */
  lemma AugAssignLosesSpec()
    ensures
      var s := Nested([Leaf(["a"], map[])], map[]);
      var extra := Leaf(["b"], map[]);
      && Valid(s) && Valid(extra)
      && AugAssignAsWritten(s, Spec(extra))
           == Success(AugAssignment(Nested([Leaf(["a"], map[]), extra], map[]), None))
  {
    var a, b := Leaf(["a"], map[]), Leaf(["b"], map[]);
    var s := Nested([a], map[]);
    assert DepsOf([a]) == ["a"] by {
      assert [a][1..] == [];
    }
    assert Valid(a) && Valid(b) && Valid(s);
    assert ToSet(["a"]) == {"a"} && ToSet(["b"]) == {"b"};
    assert [a] + [b] == [a, b];
  }

  /** `name += other` with `__iadd__` returning the receiver, as intended:
      the name stays bound to the extended spec. */
  function AugAssign(s: DepSpec, other: Operand): (r: Result<AugAssignment>)
    requires Valid(s) && s.Nested? && WellFormed(other)
    ensures r.Success? <==> other.Spec? && other.spec.Leaf? && ToSet(Deps(s)) !! ToSet(other.spec.deps)
    ensures r.Success? ==>
              && r.value.binding == Some(r.value.receiver)
              && Valid(r.value.receiver)
              && Deps(r.value.receiver) == Deps(s) + other.spec.deps
  {
    var extended :- IAdd(s, other);
    Success(AugAssignment(extended, Some(extended)))
  }
}

=== FILE: durations.dfy ===
/** `datetime.timedelta` as `ModelContainer` stores it: the split into
    `days`/`seconds`/`microseconds` written to the extras file, and the
    `timedelta(**d)` call that reads it back. */
module Durations {
  import opened Outcomes
  import opened JsonValues

  const MicrosPerSecond: int := 1_000_000
  const MicrosPerDay: int := 86_400_000_000
  /** `timedelta.max.days`; `timedelta.min` is `-MaxDays` whole days. */
  const MaxDays: int := 999_999_999

  /** The microsecond counts a `timedelta` can hold. */
  predicate InRange(us: int)
  {
    -MaxDays * MicrosPerDay <= us < (MaxDays + 1) * MicrosPerDay
  }

  /** A `timedelta`, as its exact number of microseconds. */
  type Duration = us: int | InRange(us)

  /** The normalised fields of a `timedelta`. */
  datatype Parts = Parts(days: int, seconds: int, micros: int)

  predicate Normalised(p: Parts)
  {
    && -MaxDays <= p.days <= MaxDays
    && 0 <= p.seconds < 86_400
    && 0 <= p.micros < MicrosPerSecond
  }

  function Total(p: Parts): int
  {
    p.days * MicrosPerDay + p.seconds * MicrosPerSecond + p.micros
  }

  /** The floored day count of an in-range duration is within range. */
  lemma DayBounds(d: int, q: int, rest: int)
    requires InRange(d)
    requires d == q * MicrosPerDay + rest && 0 <= rest < MicrosPerDay
    ensures -MaxDays <= q <= MaxDays
  {
    assert (q + MaxDays + 1) * MicrosPerDay > 0;
    assert (MaxDays - q) * MicrosPerDay + MicrosPerDay > rest;
    assert (MaxDays - q + 1) * MicrosPerDay > 0;
  }

  /** `delta.days`, `delta.seconds`, `delta.microseconds`: the day count is
      floored, so the two smaller fields are never negative. */
  function Split(d: Duration): (p: Parts)
    ensures Normalised(p) && Total(p) == d
  {
    var rest := d % MicrosPerDay;
    var p := Parts(d / MicrosPerDay, rest / MicrosPerSecond, rest % MicrosPerSecond);
    assert p.days * 86_400_000_000 + rest == d;
    assert p.seconds * 1_000_000 + p.micros == rest;
    DayBounds(d, p.days, rest);
    p
  }

  /** A duration has exactly one normalised split. */
  lemma SplitUnique(d: Duration, p: Parts)
    requires Normalised(p) && Total(p) == d
    ensures p == Split(d)
  {
    var q := Split(d);
    var rp := p.seconds * MicrosPerSecond + p.micros;
    var rq := q.seconds * MicrosPerSecond + q.micros;
    assert 0 <= rp < MicrosPerDay && 0 <= rq < MicrosPerDay;
    assert (p.days - q.days) * MicrosPerDay == rq - rp;
    assert p.days == q.days;
    assert (p.seconds - q.seconds) * MicrosPerSecond == q.micros - p.micros;
  }

  /** `__timedelta_to_dict`. */
  function DurationToDict(d: Duration): (v: Json)
    ensures v.JObj? && v.fields.Keys == {"days", "seconds", "microseconds"}
    ensures forall k | k in v.fields :: v.fields[k].JInt?
    ensures var p := Parts(IntOf(v.fields["days"]), IntOf(v.fields["seconds"]),
                           IntOf(v.fields["microseconds"]));
            Normalised(p) && Total(p) == d
  {
    var p := Split(d);
    JObj(map["days" := JInt(p.days), "seconds" := JInt(p.seconds),
             "microseconds" := JInt(p.micros)])
  }

  /** The keyword arguments `timedelta` accepts. */
  const Keywords: set<string> :=
    {"weeks", "days", "hours", "minutes", "seconds", "milliseconds", "microseconds"}

  /** Microseconds per unit of each keyword. */
  function Weight(k: string): int
  {
    match k
    case "weeks" => 7 * MicrosPerDay
    case "days" => MicrosPerDay
    case "hours" => 3_600 * MicrosPerSecond
    case "minutes" => 60 * MicrosPerSecond
    case "seconds" => MicrosPerSecond
    case "milliseconds" => 1_000
    case _ => 1
  }

  /** A component `timedelta` takes as an integer (`bool` is an `int`). */
  predicate IsInteger(v: Json)
  {
    v.JInt? || v.JBool?
  }

  function IntOf(v: Json): int
  {
    match v
    case JInt(i) => i
    case JBool(b) => if b then 1 else 0
    case _ => 0
  }

  /** The contribution of keyword `k`, zero when it is not given. */
  function Term(f: map<string, Json>, k: string): int
  {
    if k in f then Weight(k) * IntOf(f[k]) else 0
  }

  /** The exact microsecond sum of integer keyword arguments. */
  function Sum(f: map<string, Json>): int
  {
    Term(f, "weeks") + Term(f, "days") + Term(f, "hours") + Term(f, "minutes")
    + Term(f, "seconds") + Term(f, "milliseconds") + Term(f, "microseconds")
  }

  /** `__dict_to_timedelta`, i.e. `timedelta(**v)`: the argument must be a
      mapping of known keywords to numbers, and the sum must fit the range. */
  function DictToDuration(v: Json): (r: Result<Duration>)
    ensures !v.JObj? ==> r == Failure(TypeError)
    ensures v.JObj? && !(v.fields.Keys <= Keywords) ==> r == Failure(TypeError)
    ensures v.JObj? && (exists k | k in v.fields :: !IsInteger(v.fields[k])) ==> r == Failure(TypeError)
    ensures r.Success? <==>
              && v.JObj? && v.fields.Keys <= Keywords
              && (forall k | k in v.fields :: IsInteger(v.fields[k]))
              && InRange(Sum(v.fields))
    ensures r.Failure? && v.JObj? && v.fields.Keys <= Keywords
            && (forall k | k in v.fields :: IsInteger(v.fields[k])) ==>
              r.error == OverflowError
    ensures r.Success? ==> r.value == Sum(v.fields)
  {
    match v
    case JObj(f) =>
      if !(f.Keys <= Keywords) then Failure(TypeError)
      else if exists k | k in f :: !IsInteger(f[k]) then Failure(TypeError)
      else
        var us := Sum(f);
        if InRange(us) then Success(us) else Failure(OverflowError)
    case _ => Failure(TypeError)
  }

  /** The extras file's `dt` reads back as the duration that was saved. */
  lemma DurationRoundTrip(d: Duration)
    ensures DictToDuration(DurationToDict(d)) == Success(d)
  {
    var f := DurationToDict(d).fields;
    assert Sum(f) == Total(Split(d));
  }

  /** A dict that is not in normal form reads as its exact sum and is
      written back normalised: 90000 seconds are one day and 3600 seconds. */
  lemma SecondsCarryIntoDays()
    ensures DictToDuration(JObj(map["seconds" := JInt(90_000)])) == Success(90_000 * MicrosPerSecond)
    ensures DurationToDict(90_000 * MicrosPerSecond) ==
              JObj(map["days" := JInt(1), "seconds" := JInt(3_600), "microseconds" := JInt(0)])
  {
    SplitUnique(90_000 * MicrosPerSecond, Parts(1, 3_600, 0));
  }

  /** A negative duration keeps its smaller fields non-negative: one
      microsecond before zero is day -1 plus 86399.999999 seconds. */
  lemma NegativeBorrowsFromDays()
    ensures DictToDuration(JObj(map["microseconds" := JInt(-1)])) == Success(-1)
    ensures DurationToDict(-1) ==
              JObj(map["days" := JInt(-1), "seconds" := JInt(86_399), "microseconds" := JInt(999_999)])
  {
    SplitUnique(-1, Parts(-1, 86_399, 999_999));
  }
}

=== FILE: json_values.dfy ===
/** The JSON-compatible Python values the modelled code receives and
    produces: `None`, `bool`, `int`, `float`, `str`, `list` and `dict`. */
module JsonValues {
  import opened Outcomes
  import opened Seqs
  import opened StrOrder

  datatype Json =
    | JNull
    | JBool(b: bool)
    | JInt(i: int)
    | JFloat(r: real)
    | JStr(s: string)
    | JArr(items: seq<Json>)
    | JObj(fields: map<string, Json>)

  /** Python truthiness, which `x or default` consults. */
  predicate Truthy(v: Json)
  {
    match v
    case JNull => false
    case JBool(b) => b
    case JInt(i) => i != 0
    case JFloat(r) => r != 0.0
    case JStr(s) => |s| > 0
    case JArr(items) => |items| > 0
    case JObj(fields) => |fields| > 0
  }

  predicate AllStr(vs: seq<Json>)
  {
    forall i | 0 <= i < |vs| :: vs[i].JStr?
  }

  /** The strings of a list known to hold only strings. */
  function StrsOf(vs: seq<Json>): (r: seq<string>)
    requires AllStr(vs)
    ensures |r| == |vs|
    ensures forall i | 0 <= i < |vs| :: vs[i] == JStr(r[i])
  {
    seq(|vs|, i requires 0 <= i < |vs| => vs[i].s)
  }

  /** A list of strings as JSON values. */
  function Strs(names: seq<string>): (r: seq<Json>)
    ensures AllStr(r) && StrsOf(r) == names
  {
    seq(|names|, i requires 0 <= i < |names| => JStr(names[i]))
  }

  /** Python's `iter(v)`: a list yields its items, a string its one-character
      strings, a dict its keys; every other value raises `TypeError`.  A
      `map` keeps no insertion order, so the keys come out sorted; every use
      in the modelled code either re-sorts them or fails alike on any key. */
  function Iterate(v: Json): (r: Result<seq<Json>>)
    ensures r.Success? <==> v.JArr? || v.JStr? || v.JObj?
    ensures r.Failure? ==> r.error == TypeError
    ensures v.JArr? ==> r == Success(v.items)
    ensures v.JStr? ==>
              && r.Success? && |r.value| == |v.s|
              && forall i | 0 <= i < |v.s| :: r.value[i] == JStr([v.s[i]])
    ensures v.JObj? ==>
              && r.Success? && AllStr(r.value) && Unique(StrsOf(r.value))
              && ToSet(StrsOf(r.value)) == v.fields.Keys && |r.value| == |v.fields|
  {
    match v
    case JArr(items) => Success(items)
    case JStr(s) => Success(seq(|s|, i requires 0 <= i < |s| => JStr([s[i]])))
    case JObj(fields) =>
      var keys := SortedSet(fields.Keys);
      StrictIsSortedUnique(keys);
      Success(Strs(keys))
    case _ => Failure(TypeError)
  }
}

=== FILE: model_io.dfy ===
/** The backend loops of `model_io`: `save` hands the model to every
    registered exporter, `load` asks the importers in turn for a model.
    What a backend does with the file is outside the model; each call is
    represented by its outcome. */
module ModelIo {
  import opened Outcomes

  /** An estimator object, identified by `handle`; `hasFit` and
      `hasPredict` say whether it has those attributes. */
  datatype Model = Model(handle: nat, hasFit: bool, hasPredict: bool)

  /** What one exporter call does: returns normally, or raises. */
  datatype ExportOutcome = Exported | ExportRaised

  /** What one importer call does: returns a value (`None` included), or
      raises. */
  datatype ImportOutcome = Imported(result: Option<Model>) | ImportRaised

  /** An importer call that passes `assert result is not None`. */
  predicate Loaded(o: ImportOutcome)
  {
    o.Imported? && o.result.Some?
  }

  /** Some exporter returned normally, so the model file was written. */
  predicate AnyExported(es: seq<ExportOutcome>)
  {
    exists i | 0 <= i < |es| :: es[i] == Exported
  }

  /** The indices `0, 1, ..., n - 1`: the backends called, in order. */
  function Upto(n: nat): (r: seq<nat>)
    ensures |r| == n && forall i | 0 <= i < n :: r[i] == i
  {
    seq(n, i requires 0 <= i < n => i)
  }

  /** One more call extends the call log by its index. */
  lemma UptoSnoc(n: nat)
    ensures Upto(n + 1) == Upto(n) + [n]
  {
    assert forall i | 0 <= i < n + 1 :: Upto(n + 1)[i] == (Upto(n) + [n])[i];
  }

  /** `save(model, path)`: every exporter is called, whatever the earlier
      ones did; an exception is swallowed, and the result says whether any
      call returned normally. */
  method Save(es: seq<ExportOutcome>) returns (success: bool, calls: seq<nat>)
    ensures calls == Upto(|es|)
    ensures success <==> AnyExported(es)
  {
    success := false;
    calls := [];
    var i: nat := 0;
    while i < |es|
      invariant 0 <= i <= |es|
      invariant calls == Upto(i)
      invariant success <==> exists j | 0 <= j < i :: es[j] == Exported
    {
      UptoSnoc(i);
      calls := calls + [i];
      if es[i] == Exported {
        success := true;
      }
      i := i + 1;
    }
  }

  /** The value `load` returns: the first importer result that is not
      `None`. When there is none, `raise err` names a variable that no
      `except ... as err` clause left bound: the clause unbinds it on exit,
      and with no importer it was never bound. */
  function FirstLoaded(ims: seq<ImportOutcome>): (r: Result<Model>)
    ensures r.Success? <==> exists i | 0 <= i < |ims| :: Loaded(ims[i])
    ensures r.Success? ==>
              exists k | 0 <= k < |ims| ::
                && Loaded(ims[k]) && r.value == ims[k].result.value
                && forall j | 0 <= j < k :: !Loaded(ims[j])
    ensures r.Failure? ==> r.error == UnboundLocalError
  {
    if |ims| == 0 then Failure(UnboundLocalError)
    else if Loaded(ims[0]) then Success(ims[0].result.value)
    else
      var r := FirstLoaded(ims[1..]);
      assert forall i | 1 <= i < |ims| :: ims[i] == ims[1..][i - 1];
      r
  }

  /** `load(path)`: importers are called in order until one returns a
      value that is not `None`; the later ones are never called. */
  method Load(ims: seq<ImportOutcome>) returns (r: Result<Model>, calls: seq<nat>)
    ensures r == FirstLoaded(ims)
    ensures r.Success? ==>
              && 0 < |calls| <= |ims| && calls == Upto(|calls|)
              && Loaded(ims[|calls| - 1]) && r.value == ims[|calls| - 1].result.value
              && forall j | 0 <= j < |calls| - 1 :: !Loaded(ims[j])
    ensures r.Failure? ==> calls == Upto(|ims|)
  {
    calls := [];
    var i: nat := 0;
    while i < |ims| && !Loaded(ims[i])
      invariant 0 <= i <= |ims|
      invariant calls == Upto(i)
      invariant FirstLoaded(ims) == FirstLoaded(ims[i..])
      invariant forall j | 0 <= j < i :: !Loaded(ims[j])
    {
      UptoSnoc(i);
      calls := calls + [i];
      assert ims[i..][1..] == ims[i + 1..];
      i := i + 1;
    }
    if i < |ims| {
      UptoSnoc(i);
      calls := calls + [i];
      r := Success(ims[i].result.value);
    } else {
      r := Failure(UnboundLocalError);
    }
  }
}

=== FILE: models.dfy ===
/** `ModelContainer`: a model bundled with its input and output dependency
    specs, a duration and evaluation metrics, saved to and loaded from a
    directory of four files. The file system is a map from path to file;
    the clock's formatted date and the backends' outcomes are parameters. */
module Models {
  import opened Outcomes
  import opened JsonValues
  import opened Dependencies
  import opened SpecJson
  import opened Durations
  import opened ModelIo

  const ModelFilename: string := "model"
  const XSpecFilename: string := "X_spec.json"
  const YSpecFilename: string := "y_spec.json"
  const ExtrasFilename: string := "extras.json"

  // ---------------------------------------------------------------------
  // Paths

  /** `os.path.join(root, name)`: an absolute `name` replaces `root`, and a
      separator is inserted unless `root` is empty or already ends in one. */
  function Join(root: string, name: string): string
  {
    if |name| > 0 && name[0] == '/' then name
    else if |root| == 0 || root[|root| - 1] == '/' then root + name
    else root + "/" + name
  }

  /** The directory prefix `Join` puts in front of a relative name. */
  function Prefix(root: string): string
  {
    if |root| == 0 || root[|root| - 1] == '/' then root else root + "/"
  }

  /** Joining distinct relative names to one root gives distinct paths. */
  lemma JoinInjective(root: string, a: string, b: string)
    requires |a| > 0 && a[0] != '/' && |b| > 0 && b[0] != '/'
    requires a != b
    ensures Join(root, a) == Prefix(root) + a
    ensures Join(root, a) != Join(root, b)
  {
    var pre := Prefix(root);
    assert Join(root, a) == pre + a;
    assert Join(root, b) == pre + b;
    assert (pre + a)[|pre|..] == a;
    assert (pre + b)[|pre|..] == b;
  }

  datatype Paths = Paths(model: string, xSpec: string, ySpec: string, extras: string)

  predicate Distinct(p: Paths)
  {
    && p.model != p.xSpec && p.model != p.ySpec && p.model != p.extras
    && p.xSpec != p.ySpec && p.xSpec != p.extras
    && p.ySpec != p.extras
  }

  /** `__model_save_paths(save_root)`: the four files of a container, all
      directly inside `save_root` and pairwise distinct. */
  function SavePaths(root: string): (p: Paths)
    ensures Distinct(p)
    ensures && p.model == Prefix(root) + ModelFilename
            && p.xSpec == Prefix(root) + XSpecFilename
            && p.ySpec == Prefix(root) + YSpecFilename
            && p.extras == Prefix(root) + ExtrasFilename
  {
    JoinInjective(root, ModelFilename, XSpecFilename);
    JoinInjective(root, ModelFilename, YSpecFilename);
    JoinInjective(root, ModelFilename, ExtrasFilename);
    JoinInjective(root, XSpecFilename, YSpecFilename);
    JoinInjective(root, XSpecFilename, ExtrasFilename);
    JoinInjective(root, YSpecFilename, ExtrasFilename);
    JoinInjective(root, ExtrasFilename, ModelFilename);
    Paths(Join(root, ModelFilename), Join(root, XSpecFilename),
          Join(root, YSpecFilename), Join(root, ExtrasFilename))
  }

  // ---------------------------------------------------------------------
  // The container

  /** A constructed `ModelContainer`. A spec is `None` when the caller
      passed `None`, which the constructor does not check. */
  datatype Container = Container(
    model: Model,
    xSpec: Option<DepSpec>,
    ySpec: Option<DepSpec>,
    dt: Duration,
    evalMetrics: Meta)

  /** `eval_metrics or {}` for metrics that are falsy or a dict. */
  function StoredMetrics(v: Json): Meta
  {
    if v.JObj? then v.fields else map[]
  }

  /** `ModelContainer(model, X_spec, y_spec, dt, eval_metrics)`: the model
      must have `predict` and `fit`, and truthy metrics must be a dict;
      falsy metrics are stored as `{}`. */
  function NewContainer(model: Model, x: Option<DepSpec>, y: Option<DepSpec>,
                        dt: Duration, evalMetrics: Json): (r: Result<Container>)
    ensures !model.hasPredict || !model.hasFit ==> r == Failure(AssertionError)
    ensures Truthy(evalMetrics) && !evalMetrics.JObj? ==> r == Failure(AssertionError)
    ensures r.Success? <==>
              model.hasPredict && model.hasFit && (evalMetrics.JObj? || !Truthy(evalMetrics))
    ensures r.Success? ==>
              && r.value.model == model && r.value.xSpec == x && r.value.ySpec == y
              && r.value.dt == dt
              && r.value.evalMetrics == StoredMetrics(evalMetrics)
  {
    if !model.hasPredict then Failure(AssertionError)
    else if !model.hasFit then Failure(AssertionError)
    else if Truthy(evalMetrics) && !evalMetrics.JObj? then Failure(AssertionError)
    else
      var m := if Truthy(evalMetrics) then evalMetrics.fields else map[];
      Success(Container(model, x, y, dt, m))
  }

  // ---------------------------------------------------------------------
  // Files

  /** A regular file: a backend's model file, JSON text, or a file opened
      for writing that received nothing. */
  datatype File = Blob(model: Model) | Text(content: Json) | Empty

  /** The regular files under their paths; a path absent from the map is
      not a file. */
  type Fs = map<string, File>

  /** The extras dict: the metrics, the duration's split and the date of
      the save, formatted `%Y-%m-%d` by the caller's clock. */
  function Extras(c: Container, today: string): (v: Json)
    ensures v.JObj? && v.fields.Keys == {"eval_metrics", "dt", "save_timestamp"}
    ensures v.fields["eval_metrics"] == JObj(c.evalMetrics)
    ensures v.fields["dt"] == DurationToDict(c.dt)
    ensures DictToDuration(v.fields["dt"]) == Success(c.dt)
    ensures v.fields["save_timestamp"] == JStr(today)
  {
    DurationRoundTrip(c.dt);
    JObj(map["eval_metrics" := JObj(c.evalMetrics), "dt" := DurationToDict(c.dt),
             "save_timestamp" := JStr(today)])
  }

  /** The file system after a save, and the exception it raised if any. */
  datatype SaveOutcome = SaveOutcome(fs: Fs, error: Option<Error>)

  /** `save_spec(spec, path)`: the file is opened with `'w+'` before
      `spec.to_dict()` runs, so a `None` spec leaves an empty file and
      raises `AttributeError`. */
  function SaveSpec(fs: Fs, path: string, spec: Option<DepSpec>): (r: SaveOutcome)
    ensures path in r.fs && r.fs.Keys == fs.Keys + {path}
    ensures forall k | k in fs && k != path :: r.fs[k] == fs[k]
    ensures r.error.None? <==> spec.Some?
    ensures r.error.Some? ==> r.error.value == AttributeError && r.fs[path] == Empty
    ensures spec.Some? ==> r.fs[path] == Text(ToDict(spec.value))
  {
    match spec
    case None => SaveOutcome(fs[path := Empty], Some(AttributeError))
    case Some(s) => SaveOutcome(fs[path := Text(ToDict(s))], None)
  }

  /** `model_io.save(model, path)` as seen in the file system: the model
      file holds the model once any exporter has returned normally, and is
      left as it was otherwise. */
  function ExportModel(fs: Fs, path: string, m: Model, es: seq<ExportOutcome>): (r: Fs)
    ensures path in r <==> AnyExported(es) || path in fs
    ensures path in r ==> r[path] == if AnyExported(es) then Blob(m) else fs[path]
    ensures r.Keys <= fs.Keys + {path}
    ensures forall k | k in fs && k != path :: k in r && r[k] == fs[k]
  {
    if AnyExported(es) then fs[path := Blob(m)] else fs
  }

  /** The writes of `ModelContainer.save` into the files `p`, with the
      extras dict already packed. */
  function SaveTo(c: Container, p: Paths, fs: Fs, es: seq<ExportOutcome>, extras: Json)
    : (r: SaveOutcome)
    ensures r.error.None? <==> c.xSpec.Some? && c.ySpec.Some?
    ensures r.error.Some? ==> r.error.value == AttributeError
  {
    var fs1 := ExportModel(fs, p.model, c.model, es);
    var x := SaveSpec(fs1, p.xSpec, c.xSpec);
    if x.error.Some? then x
    else
      var y := SaveSpec(x.fs, p.ySpec, c.ySpec);
      if y.error.Some? then y
      else SaveOutcome(y.fs[p.extras := Text(extras)], None)
  }

  /** `ModelContainer.save(path)`: the extras are packed first; then the
      model goes to every exporter, and the X spec, the y spec and the
      extras are written in that order. The first exception stops the
      save. `save` ignores whether any exporter succeeded. */
  function Save(c: Container, root: string, fs: Fs, es: seq<ExportOutcome>, today: string)
    : (r: SaveOutcome)
    ensures r.error.None? <==> c.xSpec.Some? && c.ySpec.Some?
    ensures r.error.Some? ==> r.error.value == AttributeError
  {
    SaveTo(c, SavePaths(root), fs, es, Extras(c, today))
  }

  lemma SaveToModelFile(c: Container, p: Paths, fs: Fs, es: seq<ExportOutcome>, extras: Json)
    requires Distinct(p)
    ensures var r := SaveTo(c, p, fs, es, extras);
            && (AnyExported(es) ==> p.model in r.fs && r.fs[p.model] == Blob(c.model))
            && (!AnyExported(es) ==>
                  && (p.model in r.fs <==> p.model in fs)
                  && (p.model in fs ==> r.fs[p.model] == fs[p.model]))
  {
    var fs1 := ExportModel(fs, p.model, c.model, es);
    var x := SaveSpec(fs1, p.xSpec, c.xSpec);
    if x.error.None? {
      var y := SaveSpec(x.fs, p.ySpec, c.ySpec);
      assert p.model in y.fs <==> p.model in fs1;
    }
  }

  /** After a save the model file holds the model when some exporter
      succeeded, and is left as it was otherwise. */
  lemma SaveModelFile(c: Container, root: string, fs: Fs, es: seq<ExportOutcome>, today: string)
    ensures var p, r := SavePaths(root), Save(c, root, fs, es, today);
            && (AnyExported(es) ==> p.model in r.fs && r.fs[p.model] == Blob(c.model))
            && (!AnyExported(es) ==>
                  && (p.model in r.fs <==> p.model in fs)
                  && (p.model in fs ==> r.fs[p.model] == fs[p.model]))
  {
    SaveToModelFile(c, SavePaths(root), fs, es, Extras(c, today));
  }

  lemma SaveToSpecFiles(c: Container, p: Paths, fs: Fs, es: seq<ExportOutcome>, extras: Json)
    requires Distinct(p)
    ensures var r := SaveTo(c, p, fs, es, extras);
            r.error.None? ==>
              && p.xSpec in r.fs && r.fs[p.xSpec] == Text(ToDict(c.xSpec.value))
              && p.ySpec in r.fs && r.fs[p.ySpec] == Text(ToDict(c.ySpec.value))
              && p.extras in r.fs && r.fs[p.extras] == Text(extras)
    ensures var r := SaveTo(c, p, fs, es, extras);
            c.xSpec.None? ==>
              && p.xSpec in r.fs && r.fs[p.xSpec] == Empty
              && (p.ySpec in r.fs <==> p.ySpec in fs)
              && (p.extras in r.fs <==> p.extras in fs)
  {
  }

  /** A complete save writes both spec dictionaries and the extras; a save
      without an X spec empties that file and stops before the others. */
  lemma SaveSpecFiles(c: Container, root: string, fs: Fs, es: seq<ExportOutcome>, today: string)
    ensures var p, r := SavePaths(root), Save(c, root, fs, es, today);
            r.error.None? ==>
              && p.xSpec in r.fs && r.fs[p.xSpec] == Text(ToDict(c.xSpec.value))
              && p.ySpec in r.fs && r.fs[p.ySpec] == Text(ToDict(c.ySpec.value))
              && p.extras in r.fs && r.fs[p.extras] == Text(Extras(c, today))
    ensures var p, r := SavePaths(root), Save(c, root, fs, es, today);
            c.xSpec.None? ==>
              && p.xSpec in r.fs && r.fs[p.xSpec] == Empty
              && (p.ySpec in r.fs <==> p.ySpec in fs)
              && (p.extras in r.fs <==> p.extras in fs)
  {
    SaveToSpecFiles(c, SavePaths(root), fs, es, Extras(c, today));
  }

  lemma SaveToTouchesOnlyItsFiles(c: Container, p: Paths, fs: Fs, es: seq<ExportOutcome>,
                                  extras: Json)
    ensures var r := SaveTo(c, p, fs, es, extras);
            && r.fs.Keys <= fs.Keys + {p.model, p.xSpec, p.ySpec, p.extras}
            && forall k | k in fs && k !in {p.model, p.xSpec, p.ySpec, p.extras} ::
                 k in r.fs && r.fs[k] == fs[k]
  {
  }

  /** A save touches no file outside the four of its directory. */
  lemma SaveTouchesOnlyItsFiles(c: Container, root: string, fs: Fs, es: seq<ExportOutcome>,
                                today: string)
    ensures var p, r := SavePaths(root), Save(c, root, fs, es, today);
            && r.fs.Keys <= fs.Keys + {p.model, p.xSpec, p.ySpec, p.extras}
            && forall k | k in fs && k !in {p.model, p.xSpec, p.ySpec, p.extras} ::
                 k in r.fs && r.fs[k] == fs[k]
  {
    SaveToTouchesOnlyItsFiles(c, SavePaths(root), fs, es, Extras(c, today));
  }

  // ---------------------------------------------------------------------
  // Loading

  /** `json.loads(f.read())` on a file: an empty file or a model file is
      not JSON text. */
  function ReadJson(f: File): (r: Result<Json>)
    ensures r.Success? <==> f.Text?
    ensures r.Success? ==> r.value == f.content
    ensures r.Failure? ==> r.error == JsonDecodeError
  {
    match f
    case Text(v) => Success(v)
    case _ => Failure(JsonDecodeError)
  }

  /** `v[key]` for a string key: only a dict can be subscripted by it. */
  function Subscript(v: Json, key: string): (r: Result<Json>)
    ensures r.Success? <==> v.JObj? && key in v.fields
    ensures r.Success? ==> r.value == v.fields[key]
    ensures v.JObj? && key !in v.fields ==> r == Failure(KeyError(key))
    ensures !v.JObj? ==> r == Failure(TypeError)
  {
    match v
    case JObj(f) => if key in f then Success(f[key]) else Failure(KeyError(key))
    case _ => Failure(TypeError)
  }

  /** `load_spec(path)` as written: the spec is parsed, so a malformed one
      raises, but the function has no `return` and gives `None`. */
  function LoadSpecAsWritten(f: File): (r: Result<Option<DepSpec>>)
    ensures r.Success? <==> f.Text? && FromDict(f.content).Success?
    ensures r.Success? ==> r.value.None?
    ensures !f.Text? ==> r == Failure(JsonDecodeError)
    ensures f.Text? && FromDict(f.content).Failure? ==> r == Failure(FromDict(f.content).error)
  {
    var v :- ReadJson(f);
    var _ :- FromDict(v);
    Success(None)
  }

  /** `load_spec(path)` returning the spec it parses. */
  function LoadSpec(f: File): (r: Result<Option<DepSpec>>)
    ensures r.Success? <==> LoadSpecAsWritten(f).Success?
    ensures r.Success? ==> r.value.Some? && Valid(r.value.value)
    ensures f.Text? ==> r == (match FromDict(f.content)
                               case Success(s) => Success(Some(s))
                               case Failure(e) => Failure(e))
  {
    var v :- ReadJson(f);
    var s :- FromDict(v);
    Success(Some(s))
  }

  /** The four `assert os.path.isfile(...)` checks, in order. */
  function CheckFiles(p: Paths, fs: Fs): (r: Option<Error>)
    ensures r.None? <==> p.model in fs && p.xSpec in fs && p.ySpec in fs && p.extras in fs
    ensures p.model !in fs ==> r == Some(MissingFile(p.model))
    ensures p.model in fs && p.xSpec !in fs ==> r == Some(MissingFile(p.xSpec))
    ensures p.model in fs && p.xSpec in fs && p.ySpec !in fs ==> r == Some(MissingFile(p.ySpec))
    ensures p.model in fs && p.xSpec in fs && p.ySpec in fs && p.extras !in fs ==>
              r == Some(MissingFile(p.extras))
  {
    if p.model !in fs then Some(MissingFile(p.model))
    else if p.xSpec !in fs then Some(MissingFile(p.xSpec))
    else if p.ySpec !in fs then Some(MissingFile(p.ySpec))
    else if p.extras !in fs then Some(MissingFile(p.extras))
    else None
  }

  /** The spec reader `load` uses: as written, or returning its spec. */
  function ReadSpec(f: File, fixed: bool): (r: Result<Option<DepSpec>>)
    ensures r.Success? <==> LoadSpecAsWritten(f).Success?
    ensures r.Failure? ==> r.error == LoadSpecAsWritten(f).error
    ensures r.Success? && !fixed ==> r.value.None?
    ensures r.Success? && fixed ==> r.value.Some? && Valid(r.value.value)
  {
    if fixed then LoadSpec(f) else LoadSpecAsWritten(f)
  }

  /** The metrics and the duration read back from the extras file. */
  datatype ExtrasRead = ExtrasRead(evalMetrics: Json, dt: Duration)

  /** Reading the extras file: `extras["eval_metrics"]`, then
      `timedelta(**extras["dt"])`. */
  function ReadExtras(f: File): (r: Result<ExtrasRead>)
    ensures r.Success? ==> f.Text? && f.content.JObj?
    ensures r.Success? ==> "eval_metrics" in f.content.fields && "dt" in f.content.fields
    ensures r.Success? ==> r.value.evalMetrics == f.content.fields["eval_metrics"]
    ensures r.Success? ==> DictToDuration(f.content.fields["dt"]) == Success(r.value.dt)
    ensures r.Success? <==>
              && f.Text? && f.content.JObj?
              && "eval_metrics" in f.content.fields && "dt" in f.content.fields
              && DictToDuration(f.content.fields["dt"]).Success?
    ensures !f.Text? ==> r == Failure(JsonDecodeError)
    ensures f.Text? && !f.content.JObj? ==> r == Failure(TypeError)
    ensures f.Text? && f.content.JObj? && "eval_metrics" !in f.content.fields ==>
              r == Failure(KeyError("eval_metrics"))
    ensures f.Text? && f.content.JObj? && "eval_metrics" in f.content.fields &&
            "dt" !in f.content.fields ==>
              r == Failure(KeyError("dt"))
    ensures f.Text? && f.content.JObj? && "eval_metrics" in f.content.fields &&
            "dt" in f.content.fields && DictToDuration(f.content.fields["dt"]).Failure? ==>
              r == Failure(DictToDuration(f.content.fields["dt"]).error)
  {
    var extras :- ReadJson(f);
    var em :- Subscript(extras, "eval_metrics");
    var dtv :- Subscript(extras, "dt");
    var dt :- DictToDuration(dtv);
    Success(ExtrasRead(em, dt))
  }

  /** When the steps of `load` after the file checks succeed: an importer
      loads a model with `fit` and `predict`, both spec files parse, and the
      extras file converts, with metrics that are falsy or a dict. */
  predicate Loadable(p: Paths, fs: Fs, ims: seq<ImportOutcome>)
    requires CheckFiles(p, fs).None?
  {
    && FirstLoaded(ims).Success?
    && FirstLoaded(ims).value.hasFit && FirstLoaded(ims).value.hasPredict
    && LoadSpecAsWritten(fs[p.xSpec]).Success?
    && LoadSpecAsWritten(fs[p.ySpec]).Success?
    && ReadExtras(fs[p.extras]).Success?
    && var em := ReadExtras(fs[p.extras]).value.evalMetrics;
       em.JObj? || !Truthy(em)
  }

  /** The steps of `ModelContainer.load(path)` after the file checks, with
      the chosen spec reader. */
  function LoadWith(p: Paths, fs: Fs, ims: seq<ImportOutcome>, fixed: bool): (r: Result<Container>)
    requires CheckFiles(p, fs).None?
    ensures r.Success? ==> FirstLoaded(ims).Success? && r.value.model == FirstLoaded(ims).value
    ensures r.Success? ==> r.value.model.hasFit && r.value.model.hasPredict
    ensures FirstLoaded(ims).Failure? ==> r == Failure(UnboundLocalError)
    ensures r.Success? && !fixed ==> r.value.xSpec.None? && r.value.ySpec.None?
    ensures r.Success? && fixed ==>
              && r.value.xSpec.Some? && Valid(r.value.xSpec.value)
              && r.value.ySpec.Some? && Valid(r.value.ySpec.value)
    ensures r.Success? <==> Loadable(p, fs, ims)
    ensures FirstLoaded(ims).Success? && LoadSpecAsWritten(fs[p.xSpec]).Failure? ==>
              r == Failure(LoadSpecAsWritten(fs[p.xSpec]).error)
    ensures FirstLoaded(ims).Success? && LoadSpecAsWritten(fs[p.xSpec]).Success? &&
            LoadSpecAsWritten(fs[p.ySpec]).Failure? ==>
              r == Failure(LoadSpecAsWritten(fs[p.ySpec]).error)
    ensures FirstLoaded(ims).Success? && LoadSpecAsWritten(fs[p.xSpec]).Success? &&
            LoadSpecAsWritten(fs[p.ySpec]).Success? && ReadExtras(fs[p.extras]).Failure? ==>
              r == Failure(ReadExtras(fs[p.extras]).error)
    ensures FirstLoaded(ims).Success? && LoadSpecAsWritten(fs[p.xSpec]).Success? &&
            LoadSpecAsWritten(fs[p.ySpec]).Success? && ReadExtras(fs[p.extras]).Success? &&
            !Loadable(p, fs, ims) ==>
              r == Failure(AssertionError)
    ensures r.Success? ==>
              && r.value.dt == ReadExtras(fs[p.extras]).value.dt
              && r.value.evalMetrics == StoredMetrics(ReadExtras(fs[p.extras]).value.evalMetrics)
    ensures r.Success? && fixed ==>
              r.value.xSpec == LoadSpec(fs[p.xSpec]).value && r.value.ySpec == LoadSpec(fs[p.ySpec]).value
  {
    var model :- FirstLoaded(ims);
    var x :- ReadSpec(fs[p.xSpec], fixed);
    var y :- ReadSpec(fs[p.ySpec], fixed);
    var extras :- ReadExtras(fs[p.extras]);
    NewContainer(model, x, y, extras.dt, extras.evalMetrics)
  }

  /** `ModelContainer.load(path)` as written: both specs come back `None`. */
  function Load(root: string, fs: Fs, ims: seq<ImportOutcome>): (r: Result<Container>)
    ensures var p := SavePaths(root);
            CheckFiles(p, fs).Some? ==> r == Failure(CheckFiles(p, fs).value)
    ensures var p := SavePaths(root);
            CheckFiles(p, fs).None? && FirstLoaded(ims).Failure? ==> r == Failure(UnboundLocalError)
    ensures r.Success? ==> r.value.xSpec.None? && r.value.ySpec.None?
    ensures r.Success? ==> FirstLoaded(ims).Success? && r.value.model == FirstLoaded(ims).value
    ensures var p := SavePaths(root);
            CheckFiles(p, fs).None? ==> (r.Success? <==> Loadable(p, fs, ims))
    ensures var p := SavePaths(root);
            CheckFiles(p, fs).None? && r.Success? ==>
              && r.value.dt == ReadExtras(fs[p.extras]).value.dt
              && r.value.evalMetrics == StoredMetrics(ReadExtras(fs[p.extras]).value.evalMetrics)
  {
    var p := SavePaths(root);
    match CheckFiles(p, fs)
    case Some(e) => Failure(e)
    case None => LoadWith(p, fs, ims, false)
  }

  /** `ModelContainer.load(path)` with `load_spec` returning its spec. */
  function LoadFixed(root: string, fs: Fs, ims: seq<ImportOutcome>): (r: Result<Container>)
    ensures var p := SavePaths(root);
            CheckFiles(p, fs).Some? ==> r == Failure(CheckFiles(p, fs).value)
    ensures var p := SavePaths(root);
            CheckFiles(p, fs).None? && FirstLoaded(ims).Failure? ==> r == Failure(UnboundLocalError)
    ensures r.Success? ==>
              && r.value.xSpec.Some? && Valid(r.value.xSpec.value)
              && r.value.ySpec.Some? && Valid(r.value.ySpec.value)
    ensures r.Success? ==> FirstLoaded(ims).Success? && r.value.model == FirstLoaded(ims).value
    ensures var p := SavePaths(root);
            CheckFiles(p, fs).None? ==> (r.Success? <==> Loadable(p, fs, ims))
    ensures var p := SavePaths(root);
            CheckFiles(p, fs).None? && r.Success? ==>
              && r.value.dt == ReadExtras(fs[p.extras]).value.dt
              && r.value.evalMetrics == StoredMetrics(ReadExtras(fs[p.extras]).value.evalMetrics)
              && r.value.xSpec == LoadSpec(fs[p.xSpec]).value
              && r.value.ySpec == LoadSpec(fs[p.ySpec]).value
  {
    var p := SavePaths(root);
    match CheckFiles(p, fs)
    case Some(e) => Failure(e)
    case None => LoadWith(p, fs, ims, true)
  }

  /** The two spec readers decide alike: both loads fail with the same
      error or both succeed, and then differ only in the specs. */
  lemma LoadWithAgrees(p: Paths, fs: Fs, ims: seq<ImportOutcome>)
    requires CheckFiles(p, fs).None?
    ensures var fixed, written := LoadWith(p, fs, ims, true), LoadWith(p, fs, ims, false);
            && (fixed.Success? <==> written.Success?)
            && (fixed.Failure? ==> fixed.error == written.error)
            && (fixed.Success? ==>
                  fixed.value == written.value.(xSpec := fixed.value.xSpec, ySpec := fixed.value.ySpec))
  {
    if FirstLoaded(ims).Success? {
      var fx, wx := ReadSpec(fs[p.xSpec], true), ReadSpec(fs[p.xSpec], false);
      var fy, wy := ReadSpec(fs[p.ySpec], true), ReadSpec(fs[p.ySpec], false);
      if fx.Success? && fy.Success? {
        var e := ReadExtras(fs[p.extras]);
        if e.Success? {
          var m := FirstLoaded(ims).value;
          var c := NewContainer(m, fx.value, fy.value, e.value.dt, e.value.evalMetrics);
          var w := NewContainer(m, wx.value, wy.value, e.value.dt, e.value.evalMetrics);
          assert c.Success? <==> w.Success?;
        }
      }
    }
  }

  /** The corrected load fails exactly when the as-written one does, and
      otherwise returns the same container with its specs filled in. */
  lemma LoadFixedAgrees(root: string, fs: Fs, ims: seq<ImportOutcome>)
    ensures var fixed, written := LoadFixed(root, fs, ims), Load(root, fs, ims);
            && (fixed.Success? <==> written.Success?)
            && (fixed.Failure? ==> fixed.error == written.error)
            && (fixed.Success? ==>
                  fixed.value == written.value.(xSpec := fixed.value.xSpec, ySpec := fixed.value.ySpec))
  {
    var p := SavePaths(root);
    if CheckFiles(p, fs).None? {
      LoadWithAgrees(p, fs, ims);
    }
  }

  // ---------------------------------------------------------------------
  // Save followed by load

  /** A container `load` can rebuild: its model has both methods, and both
      specs are present and valid. */
  predicate Restorable(c: Container)
  {
    && c.model.hasFit && c.model.hasPredict
    && c.xSpec.Some? && Valid(c.xSpec.value)
    && c.ySpec.Some? && Valid(c.ySpec.value)
  }

  /** The extras file a save writes reads back as the container's metrics
      and duration. */
  lemma ExtrasReadBack(c: Container, today: string)
    ensures ReadExtras(Text(Extras(c, today))) == Success(ExtrasRead(JObj(c.evalMetrics), c.dt))
  {
  }

  /** Loading files that hold a container's model, spec dictionaries and
      extras rebuilds the container, without its specs as written. */
  lemma LoadFromFiles(c: Container, p: Paths, fs: Fs, ims: seq<ImportOutcome>, today: string,
                      fixed: bool)
    requires Restorable(c) && FirstLoaded(ims) == Success(c.model)
    requires p.model in fs
    requires p.xSpec in fs && fs[p.xSpec] == Text(ToDict(c.xSpec.value))
    requires p.ySpec in fs && fs[p.ySpec] == Text(ToDict(c.ySpec.value))
    requires p.extras in fs && fs[p.extras] == Text(Extras(c, today))
    ensures CheckFiles(p, fs).None?
    ensures LoadWith(p, fs, ims, fixed) == Success(if fixed then c else c.(xSpec := None, ySpec := None))
  {
    RoundTrip(c.xSpec.value);
    RoundTrip(c.ySpec.value);
    assert ReadSpec(fs[p.xSpec], fixed) == Success(if fixed then c.xSpec else None);
    assert ReadSpec(fs[p.ySpec], fixed) == Success(if fixed then c.ySpec else None);
    ExtrasReadBack(c, today);
    assert NewContainer(c.model, if fixed then c.xSpec else None, if fixed then c.ySpec else None,
                        c.dt, JObj(c.evalMetrics))
           == Success(if fixed then c else c.(xSpec := None, ySpec := None));
  }

  /** The files a complete save leaves behind, read back by `LoadWith`. */
  lemma ReadSaved(c: Container, root: string, fs: Fs, es: seq<ExportOutcome>,
                  ims: seq<ImportOutcome>, today: string, fixed: bool)
    requires Restorable(c) && AnyExported(es) && FirstLoaded(ims) == Success(c.model)
    ensures var saved := Save(c, root, fs, es, today);
            && saved.error.None?
            && CheckFiles(SavePaths(root), saved.fs).None?
            && LoadWith(SavePaths(root), saved.fs, ims, fixed) ==
                 Success(if fixed then c else c.(xSpec := None, ySpec := None))
  {
    var p, extras := SavePaths(root), Extras(c, today);
    var saved := SaveTo(c, p, fs, es, extras);
    assert Save(c, root, fs, es, today) == saved;
    SaveToModelFile(c, p, fs, es, extras);
    SaveToSpecFiles(c, p, fs, es, extras);
    LoadFromFiles(c, p, saved.fs, ims, today, fixed);
  }

  /** As written, loading what was saved gives back the model, the duration
      and the metrics, but neither spec. */
  lemma SaveThenLoadLosesSpecs(c: Container, root: string, fs: Fs, es: seq<ExportOutcome>,
                               ims: seq<ImportOutcome>, today: string)
    requires Restorable(c) && AnyExported(es) && FirstLoaded(ims) == Success(c.model)
    ensures var saved := Save(c, root, fs, es, today);
            && saved.error.None?
            && Load(root, saved.fs, ims) == Success(c.(xSpec := None, ySpec := None))
            && Load(root, saved.fs, ims) != Success(c)
  {
    ReadSaved(c, root, fs, es, ims, today, false);
  }

  /** With `load_spec` returning its spec, loading what was saved gives back
      the whole container. */
  lemma SaveThenLoadFixed(c: Container, root: string, fs: Fs, es: seq<ExportOutcome>,
                          ims: seq<ImportOutcome>, today: string)
    requires Restorable(c) && AnyExported(es) && FirstLoaded(ims) == Success(c.model)
    ensures var saved := Save(c, root, fs, es, today);
            saved.error.None? && LoadFixed(root, saved.fs, ims) == Success(c)
  {
    ReadSaved(c, root, fs, es, ims, today, true);
  }

  /** When every exporter raises and no model file was there before, the
      save still writes the specs and extras, and loading it fails on the
      missing model file. */
  lemma SaveWithoutExporterCannotLoad(c: Container, root: string, fs: Fs, es: seq<ExportOutcome>,
                                      ims: seq<ImportOutcome>, today: string)
    requires !AnyExported(es) && SavePaths(root).model !in fs
    ensures var saved := Save(c, root, fs, es, today);
            && Load(root, saved.fs, ims) == Failure(MissingFile(SavePaths(root).model))
            && LoadFixed(root, saved.fs, ims) == Failure(MissingFile(SavePaths(root).model))
  {
    var p, extras := SavePaths(root), Extras(c, today);
    assert Save(c, root, fs, es, today) == SaveTo(c, p, fs, es, extras);
    SaveToModelFile(c, p, fs, es, extras);
  }

  /** Saving a container without an X spec raises after emptying the X spec
      file; loading that directory then fails on the empty file, whatever
      the model file and the importers hold. */
  lemma SaveWithoutSpecCannotLoad(c: Container, root: string, fs: Fs, es: seq<ExportOutcome>,
                                  ims: seq<ImportOutcome>, today: string)
    requires c.xSpec.None?
    requires var p := SavePaths(root);
             (AnyExported(es) || p.model in fs) && p.ySpec in fs && p.extras in fs
    requires FirstLoaded(ims).Success?
    ensures var saved := Save(c, root, fs, es, today);
            && saved.error == Some(AttributeError)
            && Load(root, saved.fs, ims) == Failure(JsonDecodeError)
  {
  }
}

=== FILE: outcomes.dfy ===
/** Failure-compatible wrappers shared by every module of the model.
    Python exceptions become `Failure(error)` values; `:-` propagates them the
    way an uncaught exception propagates out of a Python call. */
module Outcomes {

  /** The Python exception classes raised by the modelled code. */
  datatype Error =
    | TypeError
    | ValueError
    | AssertionError
    | AttributeError
    | IndexError
    | KeyError(key: string)
    | OverflowError
    | JsonDecodeError
    | UnboundLocalError
      /** The `AssertionError` of an existence check whose message names `path`. */
    | MissingFile(path: string)

  datatype Option<+T> = None | Some(value: T)

  datatype Result<+T> = Success(value: T) | Failure(error: Error) {

    predicate IsFailure() {
      Failure?
    }

    function PropagateFailure<U>(): Result<U>
      requires Failure?
    {
      Failure(error)
    }

    function Extract(): T
      requires Success?
    {
      value
    }
  }
}

=== FILE: seqs.dfy ===
/** Facts about sequences used as Python lists of distinct items. */
module Seqs {

  /** Python's `set(s)`. */
  function ToSet<T>(s: seq<T>): set<T>
  {
    set x | x in s
  }

  /** No item occurs twice. */
  predicate Unique<T(==)>(s: seq<T>)
  {
    forall i, j | 0 <= i < j < |s| :: s[i] != s[j]
  }

  /** The duplicate check `len(set(s)) == len(s)` used by the source is
      exactly uniqueness. */
  lemma {:induction false} UniqueIffDistinctCount<T>(s: seq<T>)
    ensures |ToSet(s)| <= |s|
    ensures Unique(s) <==> |ToSet(s)| == |s|
  {
    if |s| > 0 {
      var p, x := s[..|s| - 1], s[|s| - 1];
      UniqueIffDistinctCount(p);
      assert s == p + [x];
      assert ToSet(s) == ToSet(p) + {x};
      if x in ToSet(p) {
        var k :| 0 <= k < |p| && p[k] == x;
        assert s[k] == s[|s| - 1];
        assert !Unique(s);
      } else {
        assert |ToSet(s)| == |ToSet(p)| + 1;
        if Unique(p) {
          forall i, j | 0 <= i < j < |s|
            ensures s[i] != s[j]
          {
            if j == |s| - 1 {
              assert s[i] == p[i];
            } else {
              assert s[i] == p[i] && s[j] == p[j];
            }
          }
        } else {
          var i, j :| 0 <= i < j < |p| && p[i] == p[j];
          assert s[i] == s[j];
        }
      }
    }
  }

  /** A permutation has the same items. */
  lemma ToSetOfPermutation<T>(a: seq<T>, b: seq<T>)
    requires multiset(a) == multiset(b)
    ensures ToSet(a) == ToSet(b)
  {
    forall x
      ensures x in ToSet(a) <==> x in ToSet(b)
    {
      assert x in a <==> x in multiset(a);
      assert x in b <==> x in multiset(b);
    }
  }

  /** A permutation of a duplicate-free list is duplicate-free. */
  lemma UniqueOfPermutation<T>(a: seq<T>, b: seq<T>)
    requires multiset(a) == multiset(b)
    requires Unique(a)
    ensures Unique(b)
  {
    assert |a| == |multiset(a)| == |multiset(b)| == |b|;
    ToSetOfPermutation(a, b);
    UniqueIffDistinctCount(a);
    UniqueIffDistinctCount(b);
  }

  /** A concatenation is duplicate-free exactly when both parts are and
      they share no item. */
  lemma UniqueConcat<T>(a: seq<T>, b: seq<T>)
    ensures Unique(a + b) <==> Unique(a) && Unique(b) && ToSet(a) !! ToSet(b)
  {
    var c := a + b;
    if Unique(c) {
      forall i, j | 0 <= i < j < |a|
        ensures a[i] != a[j]
      {
        assert c[i] == a[i] && c[j] == a[j];
      }
      forall i, j | 0 <= i < j < |b|
        ensures b[i] != b[j]
      {
        assert c[|a| + i] == b[i] && c[|a| + j] == b[j];
      }
      forall i, j | 0 <= i < |a| && 0 <= j < |b|
        ensures a[i] != b[j]
      {
        assert c[i] == a[i] && c[|a| + j] == b[j];
      }
    }
    if Unique(a) && Unique(b) && ToSet(a) !! ToSet(b) {
      forall i, j | 0 <= i < j < |c|
        ensures c[i] != c[j]
      {
        if j < |a| {
          assert c[i] == a[i] && c[j] == a[j];
        } else if i >= |a| {
          assert c[i] == b[i - |a|] && c[j] == b[j - |a|];
        } else {
          assert c[i] in ToSet(a) && c[j] in ToSet(b);
        }
      }
    }
  }
}

=== FILE: spec_json.dfy ===
/** `to_dict` and `from_dict`: the conversion of a dependency spec to and
    from its JSON-compatible dictionary form. */
module SpecJson {
  import opened Outcomes
  import opened Seqs
  import opened StrOrder
  import opened JsonValues
  import opened Dependencies

  const DependenciesKey: string := "dependencies"
  const ChildrenKey: string := "children"
  const MetaKey: string := "meta"

  /** The keys a flat spec's dictionary may hold. */
  const LeafKeys: set<string> := {DependenciesKey, MetaKey}
  /** The keys a nested spec's dictionary may hold. */
  const NestedKeys: set<string> := {ChildrenKey, MetaKey}

  /** `to_dict()`: `{"dependencies": [...], "meta": {...}}` for a flat spec,
      `{"children": [...], "meta": {...}}` for a nested one. */
  function ToDict(s: DepSpec): (v: Json)
    ensures v.JObj?
    ensures v.fields.Keys == (if s.Leaf? then LeafKeys else NestedKeys)
    ensures v.fields[MetaKey] == JObj(s.meta)
    ensures s.Leaf? ==> v.fields[DependenciesKey] == JArr(Strs(Deps(s)))
    ensures s.Nested? ==> v.fields[ChildrenKey] == JArr(ToDictAll(s.children))
  {
    match s
    case Leaf(deps, meta) =>
      JObj(map[DependenciesKey := JArr(Strs(deps)), MetaKey := JObj(meta)])
    case Nested(children, meta) =>
      JObj(map[ChildrenKey := JArr(ToDictAll(children)), MetaKey := JObj(meta)])
  }

  /** `[child.to_dict() for child in children]`. */
  function ToDictAll(cs: seq<DepSpec>): (vs: seq<Json>)
    ensures |vs| == |cs|
    ensures forall i | 0 <= i < |cs| :: vs[i] == ToDict(cs[i])
  {
    if |cs| == 0 then [] else [ToDict(cs[0])] + ToDictAll(cs[1..])
  }

  /** `DependencySpec(**d)` for a dict whose keys are among `dependencies`
      and `meta`; without `dependencies` the call misses a required
      argument. */
  function LeafFromFields(f: map<string, Json>): (r: Result<DepSpec>)
    ensures DependenciesKey !in f ==> r == Failure(TypeError)
    ensures r.Success? ==> r.value.Leaf? && Valid(r.value)
    ensures r.Success? ==>
              && Iterate(f[DependenciesKey]).Success?
              && AllStr(Iterate(f[DependenciesKey]).value)
              && multiset(r.value.deps) == multiset(StrsOf(Iterate(f[DependenciesKey]).value))
              && MetaOf(if MetaKey in f then f[MetaKey] else JNull).Success?
              && r.value.meta == MetaOf(if MetaKey in f then f[MetaKey] else JNull).value
    ensures DependenciesKey in f ==>
              (r.Success? <==>
                 && Iterate(f[DependenciesKey]).Success?
                 && AllStr(Iterate(f[DependenciesKey]).value)
                 && |Iterate(f[DependenciesKey]).value| > 0
                 && Unique(StrsOf(Iterate(f[DependenciesKey]).value))
                 && MetaOf(if MetaKey in f then f[MetaKey] else JNull).Success?)
  {
    if DependenciesKey !in f then Failure(TypeError)
    else
      var names :- Iterate(f[DependenciesKey]);
      NewLeaf(names, if MetaKey in f then f[MetaKey] else JNull)
  }

  /** A hand-written flat dict need not be sorted: `{"dependencies": ["b",
      "a"]}` reads as the leaf `["a", "b"]` with empty `meta`. */
  lemma UnsortedLeafDict()
    ensures FromDict(JObj(map[DependenciesKey := JArr([JStr("b"), JStr("a")])]))
              == Success(Leaf(["a", "b"], map[]))
  {
    var f := map[DependenciesKey := JArr([JStr("b"), JStr("a")])];
    assert f.Keys <= LeafKeys;
    UnsortedLeafFields(f);
  }

  lemma UnsortedLeafFields(f: map<string, Json>)
    requires f == map[DependenciesKey := JArr([JStr("b"), JStr("a")])]
    ensures LeafFromFields(f) == Success(Leaf(["a", "b"], map[]))
  {
    UnsortedLeafSucceeds(f);
    var r := LeafFromFields(f);
    assert Less("a", "b");
    assert multiset(["b", "a"]) == multiset(["a", "b"]);
    SortedPermutationsEqual(r.value.deps, ["a", "b"]);
  }

  lemma UnsortedLeafSucceeds(f: map<string, Json>)
    requires f == map[DependenciesKey := JArr([JStr("b"), JStr("a")])]
    ensures LeafFromFields(f).Success?
    ensures multiset(LeafFromFields(f).value.deps) == multiset(["b", "a"])
    ensures LeafFromFields(f).value.meta == map[]
  {
    assert StrsOf([JStr("b"), JStr("a")]) == ["b", "a"];
    assert Unique(["b", "a"]) by { UniqueIffDistinctCount(["b", "a"]); }
  }

  /** `from_dict(v)`: a dict is read as a flat spec when its keys are among
      `dependencies` and `meta`, else as a nested spec when they are among
      `children` and `meta`, and is refused otherwise; a list is read as the
      children of a nested spec with empty `meta`. */
  function FromDict(v: Json): (r: Result<DepSpec>)
    ensures r.Success? ==> Valid(r.value)
    ensures v.JObj? && v.fields.Keys <= LeafKeys && r.Success? ==> r.value.Leaf?
    ensures v.JObj? && v.fields.Keys <= {MetaKey} ==> r == Failure(TypeError)
    ensures v.JObj? && !(v.fields.Keys <= LeafKeys) && r.Success? ==> r.value.Nested?
    ensures v.JObj? && !(v.fields.Keys <= LeafKeys) && !(v.fields.Keys <= NestedKeys) ==>
              r == Failure(ValueError)
    ensures v.JArr? && r.Success? ==>
              && r.value.Nested? && r.value.meta == map[]
              && |r.value.children| == |v.items|
    ensures !v.JObj? && !v.JArr? ==> r == Failure(TypeError)
    ensures v.JObj? && v.fields.Keys <= LeafKeys ==> r == LeafFromFields(v.fields)
  {
    match v
    case JObj(f) =>
      if f.Keys <= LeafKeys then LeafFromFields(f)
      else if f.Keys <= NestedKeys then
        // A dict without "children" has already been read as a flat spec, so
        // the default of `dictionary.get("children", [])` is never used.
        var meta := if MetaKey in f then f[MetaKey] else JObj(map[]);
        match f[ChildrenKey]
        case JArr(items) =>
          var cs :- FromDictAll(items);
          NewNested(AsOperands(cs), meta)
        // A string or a dict iterates as strings, and `from_dict` refuses
        // the first of them; an empty one gives no children at all.
        case JStr(text) => if |text| == 0 then NewNested([], meta) else Failure(TypeError)
        case JObj(keys) => if |keys| == 0 then NewNested([], meta) else Failure(TypeError)
        case _ => Failure(TypeError)
      else Failure(ValueError)
    case JArr(items) =>
      var cs :- FromDictAll(items);
      NewNested(AsOperands(cs), JNull)
    case _ => Failure(TypeError)
  }

  /** `[from_dict(d) for d in vs]`: the first failure propagates. */
  function FromDictAll(vs: seq<Json>): (r: Result<seq<DepSpec>>)
    ensures r.Success? ==> |r.value| == |vs|
    ensures r.Success? ==> forall i | 0 <= i < |r.value| :: Valid(r.value[i])
    ensures r.Success? ==> forall i | 0 <= i < |vs| :: FromDict(vs[i]) == Success(r.value[i])
    ensures r.Failure? ==>
              exists k | 0 <= k < |vs| ::
                && FromDict(vs[k]) == Failure(r.error)
                && forall j | 0 <= j < k :: FromDict(vs[j]).Success?
  {
    if |vs| == 0 then Success([])
    else
      var c :- FromDict(vs[0]);
      var rest :- FromDictAll(vs[1..]);
      Success([c] + rest)
  }

  /** A nested spec's dict is accepted exactly when `children` is a list
      whose items all convert, there is at least one, their flattened names
      do not repeat, and `meta` (default `{}`) is falsy or a dict; the spec
      then holds the converted children in order. */
  lemma NestedDictAccepted(f: map<string, Json>)
    requires ChildrenKey in f && f.Keys <= NestedKeys
    ensures var r := FromDict(JObj(f));
            var meta := if MetaKey in f then f[MetaKey] else JObj(map[]);
            && (r.Success? <==>
                  && f[ChildrenKey].JArr?
                  && FromDictAll(f[ChildrenKey].items).Success?
                  && |f[ChildrenKey].items| > 0
                  && Unique(DepsOf(FromDictAll(f[ChildrenKey].items).value))
                  && MetaOf(meta).Success?)
            && (r.Success? ==>
                  r == Success(Nested(FromDictAll(f[ChildrenKey].items).value, MetaOf(meta).value)))
  {
  }

  /** A list is accepted exactly when every item converts, there is at
      least one, and their flattened names do not repeat; child i is then
      `from_dict` of item i, and `meta` is empty. */
  lemma ListAccepted(items: seq<Json>)
    ensures var r := FromDict(JArr(items));
            && (r.Success? <==>
                  && FromDictAll(items).Success? && |items| > 0
                  && Unique(DepsOf(FromDictAll(items).value)))
            && (r.Success? ==>
                  && r.value == Nested(FromDictAll(items).value, map[])
                  && forall i | 0 <= i < |items| :: FromDict(items[i]) == Success(r.value.children[i]))
  {
  }

  /** `from_dict(to_dict(s))` rebuilds `s`: same tree shape, same names in
      the same order, same `meta` at every node. */
  lemma {:induction false} RoundTrip(s: DepSpec)
    requires Valid(s)
    ensures FromDict(ToDict(s)) == Success(s)
  {
    match s
    case Leaf(deps, meta) =>
      LeafRoundTrip(deps, meta);
    case Nested(cs, meta) =>
      RoundTripAll(cs);
      NestedRoundTrip(cs, meta);
  }

  lemma {:induction false} RoundTripAll(cs: seq<DepSpec>)
    requires forall i | 0 <= i < |cs| :: Valid(cs[i])
    ensures FromDictAll(ToDictAll(cs)) == Success(cs)
  {
    if |cs| > 0 {
      assert FromDict(ToDict(cs[0])) == Success(cs[0]) by {
        RoundTrip(cs[0]);
      }
      assert FromDictAll(ToDictAll(cs[1..])) == Success(cs[1..]) by {
        RoundTripAll(cs[1..]);
      }
      RoundTripStep(cs);
    }
  }

  lemma {:induction false} RoundTripStep(cs: seq<DepSpec>)
    requires |cs| > 0
    requires FromDict(ToDict(cs[0])) == Success(cs[0])
    requires FromDictAll(ToDictAll(cs[1..])) == Success(cs[1..])
    ensures FromDictAll(ToDictAll(cs)) == Success(cs)
  {
    FromDictAllCons(ToDict(cs[0]), ToDictAll(cs[1..]), cs[0], cs[1..]);
    assert [cs[0]] + cs[1..] == cs;
  }

  /** A flat spec's dictionary is read back by the flat branch. */
  lemma LeafRoundTrip(deps: seq<string>, meta: Meta)
    requires Valid(Leaf(deps, meta))
    ensures FromDict(ToDict(Leaf(deps, meta))) == Success(Leaf(deps, meta))
  {
    var f := map[DependenciesKey := JArr(Strs(deps)), MetaKey := JObj(meta)];
    assert ToDict(Leaf(deps, meta)) == JObj(f);
    assert f.Keys <= LeafKeys;
    assert LeafFromFields(f) == NewLeaf(Strs(deps), JObj(meta));
    SortedUniqueIsStrict(deps);
    NewLeafOfSorted(deps, meta);
  }

  /** A nested spec's dictionary is read back by the nested branch once its
      children are. */
  lemma NestedRoundTrip(cs: seq<DepSpec>, meta: Meta)
    requires Valid(Nested(cs, meta))
    requires FromDictAll(ToDictAll(cs)) == Success(cs)
    ensures FromDict(ToDict(Nested(cs, meta))) == Success(Nested(cs, meta))
  {
    var f := map[ChildrenKey := JArr(ToDictAll(cs)), MetaKey := JObj(meta)];
    assert ToDict(Nested(cs, meta)) == JObj(f);
    NestedBranch(f, ToDictAll(cs), cs);
    assert NewNested(AsOperands(cs), JObj(meta)) == Success(Nested(cs, meta)) by {
      assert MetaOf(JObj(meta)) == Success(meta);
    }
  }

  /** A dict holding `children` and no key outside `children` and `meta`
      is read by the nested branch, with `meta` defaulting to `{}`. */
  lemma NestedBranch(f: map<string, Json>, items: seq<Json>, cs: seq<DepSpec>)
    requires ChildrenKey in f && f.Keys <= NestedKeys
    requires f[ChildrenKey] == JArr(items) && FromDictAll(items) == Success(cs)
    ensures FromDict(JObj(f)) ==
              NewNested(AsOperands(cs), if MetaKey in f then f[MetaKey] else JObj(map[]))
  {
    assert !(f.Keys <= LeafKeys) by {
      assert ChildrenKey in f.Keys && ChildrenKey !in LeafKeys;
    }
  }

  lemma FromDictAllCons(v: Json, vs: seq<Json>, c: DepSpec, rest: seq<DepSpec>)
    requires FromDict(v) == Success(c) && FromDictAll(vs) == Success(rest)
    ensures FromDictAll([v] + vs) == Success([c] + rest)
  {
    assert ([v] + vs)[0] == v && ([v] + vs)[1..] == vs;
  }

  /** A list of child dictionaries reads as a nested spec with empty `meta`:
      the list form of `from_dict` for any children that may share a tree. */
  lemma ListForm(cs: seq<DepSpec>)
    requires |cs| > 0 && forall i | 0 <= i < |cs| :: Valid(cs[i])
    requires Unique(DepsOf(cs))
    ensures FromDict(JArr(ToDictAll(cs))) == Success(Nested(cs, map[]))
  {
    RoundTripAll(cs);
    ReadList(ToDictAll(cs), cs);
    NestedOfSpecs(cs);
  }

  /** One step of `from_dict` on a list whose items all read back. */
  lemma ReadList(items: seq<Json>, cs: seq<DepSpec>)
    requires FromDictAll(items) == Success(cs)
    ensures FromDict(JArr(items)) == NewNested(AsOperands(cs), JNull)
  {
  }

  lemma NestedOfSpecs(cs: seq<DepSpec>)
    requires |cs| > 0 && forall i | 0 <= i < |cs| :: Valid(cs[i])
    requires Unique(DepsOf(cs))
    ensures NewNested(AsOperands(cs), JNull) == Success(Nested(cs, map[]))
  {
    assert SpecsOf(AsOperands(cs)) == cs;
    assert MetaOf(JNull) == Success(map[]);
  }
}

=== FILE: str_order.dfy ===
/** Python's ordering of `str` values and the `sorted()` calls built on it. */
module StrOrder {
  import opened Seqs

  /** Python's `a < b` on `str`: lexicographic by code point, and a proper
      prefix sorts before the longer string. */
  predicate Less(a: string, b: string)
  {
    if |a| == 0 then |b| > 0
    else |b| > 0 && (a[0] < b[0] || (a[0] == b[0] && Less(a[1..], b[1..])))
  }

  lemma {:induction false} LessIrreflexive(a: string)
    ensures !Less(a, a)
  {
    if |a| > 0 {
      LessIrreflexive(a[1..]);
    }
  }

  lemma {:induction false} LessTransitive(a: string, b: string, c: string)
    requires Less(a, b) && Less(b, c)
    ensures Less(a, c)
  {
    if |a| > 0 && a[0] == b[0] && b[0] == c[0] {
      LessTransitive(a[1..], b[1..], c[1..]);
    }
  }

  lemma {:induction false} LessTotal(a: string, b: string)
    ensures a == b || Less(a, b) || Less(b, a)
  {
    if |a| > 0 && |b| > 0 && a[0] == b[0] {
      LessTotal(a[1..], b[1..]);
      if a[1..] == b[1..] {
        assert a == [a[0]] + a[1..] && b == [b[0]] + b[1..];
      }
    }
  }

  lemma LessAsymmetric(a: string, b: string)
    requires Less(a, b)
    ensures !Less(b, a)
  {
    if Less(b, a) {
      LessTransitive(a, b, a);
      LessIrreflexive(a);
    }
  }

  /** `!Less(b, a)` is Python's `a <= b`; it is transitive. */
  lemma LeqTransitive(a: string, b: string, c: string)
    requires !Less(b, a) && !Less(c, b)
    ensures !Less(c, a)
  {
    LessTotal(a, b);
    LessTotal(b, c);
    if Less(c, a) {
      if a == b {
        LessAsymmetric(c, a);
      } else if b == c {
        LessAsymmetric(c, a);
      } else {
        LessTransitive(a, b, c);
        LessAsymmetric(a, c);
      }
    }
  }

  /** Non-decreasing, the order `sorted()` produces. */
  predicate Sorted(s: seq<string>)
  {
    forall i, j | 0 <= i < j < |s| :: !Less(s[j], s[i])
  }

  /** Increasing: sorted and free of duplicates. */
  predicate StrictlySorted(s: seq<string>)
  {
    forall i, j | 0 <= i < j < |s| :: Less(s[i], s[j])
  }

  lemma SortedUniqueIsStrict(s: seq<string>)
    requires Sorted(s) && Unique(s)
    ensures StrictlySorted(s)
  {
    forall i, j | 0 <= i < j < |s|
      ensures Less(s[i], s[j])
    {
      LessTotal(s[i], s[j]);
    }
  }

  lemma StrictIsSortedUnique(s: seq<string>)
    requires StrictlySorted(s)
    ensures Sorted(s) && Unique(s)
  {
    forall i, j | 0 <= i < j < |s|
      ensures !Less(s[j], s[i]) && s[i] != s[j]
    {
      LessAsymmetric(s[i], s[j]);
      LessIrreflexive(s[i]);
    }
  }

  /** Every item of `t`, a permutation of `s` plus `x`, is at least `b`
      when every item of `s` and `x` are. */
  lemma LowerBoundOfPermutation(t: seq<string>, s: seq<string>, x: string, b: string)
    requires multiset(t) == multiset(s) + multiset{x}
    requires forall k | 0 <= k < |s| :: !Less(s[k], b)
    requires !Less(x, b)
    ensures forall j | 0 <= j < |t| :: !Less(t[j], b)
  {
    forall j | 0 <= j < |t|
      ensures !Less(t[j], b)
    {
      assert t[j] in multiset(t);
      if t[j] != x {
        assert t[j] in multiset(s);
        var k :| 0 <= k < |s| && s[k] == t[j];
      }
    }
  }

  /** Inserts `x` into sorted `s`, before the first item not below it. */
  function Insert(x: string, s: seq<string>): (r: seq<string>)
    requires Sorted(s)
    ensures Sorted(r)
    ensures multiset(r) == multiset(s) + multiset{x}
  {
    if |s| == 0 then [x]
    else if !Less(s[0], x) then
      assert forall k | 0 <= k < |s| :: !Less(s[k], x) by {
        forall k | 0 <= k < |s|
          ensures !Less(s[k], x)
        {
          if k > 0 {
            LeqTransitive(x, s[0], s[k]);
          }
        }
      }
      [x] + s
    else
      assert s == [s[0]] + s[1..];
      var t := Insert(x, s[1..]);
      LessAsymmetric(s[0], x);
      LowerBoundOfPermutation(t, s[1..], x, s[0]);
      [s[0]] + t
  }

  /** Python's `sorted()` on a list of strings, as an insertion sort. */
  function Sort(s: seq<string>): (r: seq<string>)
    ensures Sorted(r)
    ensures multiset(r) == multiset(s)
  {
    if |s| == 0 then []
    else
      assert s == [s[0]] + s[1..];
      Insert(s[0], Sort(s[1..]))
  }

  /** No item of a sorted list is below its head. */
  lemma SortedHead(a: seq<string>, k: nat)
    requires Sorted(a) && k < |a|
    ensures !Less(a[k], a[0])
  {
    if k == 0 {
      LessIrreflexive(a[0]);
    }
  }

  /** The items after the head are the list's multiset without the head. */
  lemma TailMultiset(a: seq<string>)
    requires |a| > 0
    ensures multiset(a[1..]) == multiset(a) - multiset{a[0]}
  {
    assert a == [a[0]] + a[1..];
  }

  /** Two sorted permutations of one another are the same list. */
  lemma {:induction false} SortedPermutationsEqual(a: seq<string>, b: seq<string>)
    requires Sorted(a) && Sorted(b)
    requires multiset(a) == multiset(b)
    ensures a == b
  {
    assert |a| == |multiset(a)| == |multiset(b)| == |b|;
    if |a| > 0 {
      SameHead(a, b);
      assert multiset(a[1..]) == multiset(b[1..]) by {
        TailMultiset(a);
        TailMultiset(b);
      }
      SortedPermutationsEqual(a[1..], b[1..]);
      assert a == [a[0]] + a[1..] && b == [b[0]] + b[1..];
    }
  }

  /** Sorted permutations of one another start with the same item. */
  lemma SameHead(a: seq<string>, b: seq<string>)
    requires Sorted(a) && Sorted(b) && |a| > 0 && |b| > 0
    requires multiset(a) == multiset(b)
    ensures a[0] == b[0]
  {
    assert a[0] in multiset(b) && b[0] in multiset(a);
    var k :| 0 <= k < |b| && b[k] == a[0];
    var k' :| 0 <= k' < |a| && a[k'] == b[0];
    SortedHead(b, k);
    SortedHead(a, k');
    LessTotal(a[0], b[0]);
  }

  /** Sorting an already sorted list changes nothing. */
  lemma SortKeepsSorted(s: seq<string>)
    requires Sorted(s)
    ensures Sort(s) == s
  {
    SortedPermutationsEqual(Sort(s), s);
  }

  /** The head of an increasing list is the least of its items, and the
      tail holds the others. */
  lemma StrictHead(a: seq<string>)
    requires StrictlySorted(a) && |a| > 0
    ensures IsLeast(a[0], ToSet(a))
    ensures ToSet(a[1..]) == ToSet(a) - {a[0]}
  {
    forall y | y in ToSet(a)
      ensures !Less(y, a[0])
    {
      var k :| 0 <= k < |a| && a[k] == y;
      if k == 0 {
        LessIrreflexive(y);
      } else {
        LessAsymmetric(a[0], a[k]);
      }
    }
    StrictIsSortedUnique(a);
    assert a == [a[0]] + a[1..];
    assert ToSet(a) == {a[0]} + ToSet(a[1..]);
    assert a[0] !in a[1..];
  }

  /** An increasing list is determined by its set of items. */
  lemma {:induction false} StrictlySortedBySet(a: seq<string>, b: seq<string>)
    requires StrictlySorted(a) && StrictlySorted(b)
    requires ToSet(a) == ToSet(b)
    ensures a == b
  {
    StrictIsSortedUnique(a);
    StrictIsSortedUnique(b);
    UniqueIffDistinctCount(a);
    UniqueIffDistinctCount(b);
    if |a| > 0 {
      StrictHead(a);
      StrictHead(b);
      LeastUnique(a[0], b[0], ToSet(a));
      StrictlySortedBySet(a[1..], b[1..]);
      assert a == [a[0]] + a[1..] && b == [b[0]] + b[1..];
    }
  }

  predicate IsLeast(m: string, s: set<string>)
  {
    m in s && forall y | y in s :: !Less(y, m)
  }

  lemma {:induction false} LeastExists(s: set<string>)
    requires s != {}
    ensures exists m :: IsLeast(m, s)
  {
    var x :| x in s;
    if s == {x} {
      LessIrreflexive(x);
      assert IsLeast(x, s);
    } else {
      LeastExists(s - {x});
      var m :| IsLeast(m, s - {x});
      LessTotal(x, m);
      if Less(x, m) {
        forall y | y in s
          ensures !Less(y, x)
        {
          if y == x {
            LessIrreflexive(x);
          } else if Less(y, x) {
            LessTransitive(y, x, m);
          }
        }
        assert IsLeast(x, s);
      } else {
        assert IsLeast(m, s);
      }
    }
  }

  lemma LeastUnique(m: string, m': string, s: set<string>)
    requires IsLeast(m, s) && IsLeast(m', s)
    ensures m == m'
  {
    LessTotal(m, m');
  }

  /** The least string of a non-empty set. */
  function Least(s: set<string>): (m: string)
    requires s != {}
    ensures IsLeast(m, s)
  {
    LeastExists(s);
    assert forall m, m' | IsLeast(m, s) && IsLeast(m', s) :: m == m' by {
      forall m, m' | IsLeast(m, s) && IsLeast(m', s)
        ensures m == m'
      {
        LeastUnique(m, m', s);
      }
    }
    var m :| IsLeast(m, s); m
  }

  /** Putting the least item of a set before an increasing list of the
      others gives an increasing list of the whole set. */
  lemma LeastBeforeRest(m: string, s: set<string>, t: seq<string>)
    requires IsLeast(m, s) && StrictlySorted(t) && ToSet(t) == s - {m}
    ensures StrictlySorted([m] + t) && ToSet([m] + t) == s
  {
    forall j | 0 <= j < |t|
      ensures Less(m, t[j])
    {
      assert t[j] in ToSet(t);
      LessTotal(m, t[j]);
    }
    assert ToSet([m] + t) == {m} + ToSet(t);
  }

  /** Python's `sorted(s)` on a set of strings. */
  function SortedSet(s: set<string>): (r: seq<string>)
    ensures StrictlySorted(r)
    ensures ToSet(r) == s
    ensures |r| == |s|
    decreases |s|
  {
    if s == {} then []
    else
      var m := Least(s);
      var t := SortedSet(s - {m});
      LeastBeforeRest(m, s, t);
      [m] + t
  }
}
